=== FILE: README.md ===
# MailMind risk pipeline and coaching progress, modelled in Dafny

MailMind is a browser-based email triage tool. A user submits an email. The
server scores it with a local keyword heuristic and with an external language
model, then combines the two verdicts. It stores the email with a category
(`trusted`, `suspicious` or `spam`), a risk score and a blocked flag. Senders on
the allowlist are always stored as trusted. A quiz called "coaching" shows the
user stored emails and grades their guesses. It keeps a progress record with
sessions, accuracy, streak, capped experience, a level and badges.

This project models that core as pure Dafny functions over immutable
datatypes, and proves properties of them:

- `wrappers.dfy`, `numeric.dfy`, `text.dfy`, `sequences.dfy` hold shared helpers:
  - `Option`/`Result`;
  - `Math.min`/`max`/`round`;
  - `includes`, ASCII `toLowerCase`, character counts, decimal rendering;
  - `filter`/`find`, subsequences.
- `schema.dfy` holds the stored records, their insert shapes and column defaults, and the validation of analysis requests.
- `ml_classifier.dfy` is the heuristic scorer.
- `gpt_analysis.dfy` is the post-processing around the model call: the trusted short-circuit, the category rule, the clamp and the keyword fallback.
- `storage.dfy` is the persistence layer as an in-memory store of three row sequences.
- `routes.dfy` is the request handlers' decision logic: the combine rule, the allowlist, and not-found.
- `coaching.dfy` covers guess grading and the progress transition, with its invariant.
- `stats_panel.dfy`, `dashboard.dfy`, `email_card.dfy` and `coaching_panel.dfy` are the client-side helpers: percentages, the inbox filter, age text, body preview, actions, the level table and the quiz panel state.

Some things the model makes explicit:

- `Math.round(a / b)` for a positive `b` is written `(2a + b) / (2b)` with floor division. Confidence is an integer number of hundredths. The "more than half capitals" test is `2 * capitals > |subject|`.
- Randomness is an input. The trusted score draw is 0..9, the fallback draw is 0..19, and the training pick is an index.
- The model call's outcome is an input: either a reply with an optional score, a spam flag and optional reasoning, or a failure.
- The suspicious-domain entry `paypaI` contains a capital letter. It is compared against the lower-cased sender, so it can never match (`MlClassifier.CapitalDomainEntryNeverMatches`).

## Model

| member | source | states |
|---|---|---|
| `MlClassifier.CountMatches` | server/services/mlClassifier.ts:43-51 | the number of list entries found in the text is at most the list length |
| `MlClassifier.CountMatchesIsDistinctHits` | server/services/mlClassifier.ts:43-44 | for a list without repeats the count equals the number of distinct keywords present, so a keyword occurring many times contributes once |
| `MlClassifier.KeywordListsDistinct` | server/services/mlClassifier.ts:15-50 | none of the four keyword, domain or pattern lists repeats an entry |
| `MlClassifier.ReadSignals` | server/services/mlClassifier.ts:31-65 | the keyword, phishing and pattern counts are the numbers of distinct list entries found in the lower-cased subject and body, the domain flag holds iff some domain entry occurs in the lower-cased sender, the exclamation count is the number of `!` in the scanned text, and the shouting flag holds iff more than half the original subject's characters are capitals |
| `MlClassifier.ExclamationPoints` | server/services/mlClassifier.ts:65-66 | exclamation marks give 3 points each and never more than 15 in total |
| `MlClassifier.WeightedScoreBounds` | server/services/mlClassifier.ts:54-66 | the pre-clamp score is never negative and lies between the keyword terms and the keyword terms plus 55 |
| `MlClassifier.Band` | server/services/mlClassifier.ts:72-79 | spam iff score >= 70, suspicious iff 35 <= score < 70, trusted iff score < 35 |
| `MlClassifier.BandMonotone` | server/services/mlClassifier.ts:72-79 | a higher score never gives a milder category |
| `MlClassifier.ConfidenceOf` | server/services/mlClassifier.ts:82-83 | confidence is in 0.30..0.95. It equals 0.30 iff no indicator matched, is 0.30 + 0.15 per indicator for up to four indicators, and is 0.95 from five indicators on |
| `MlClassifier.ClassifyEmailWithMl` | server/services/mlClassifier.ts:10-90 | the risk score is in 0..100 and is min(100, weighted score), the category is the band of the returned score, and the confidence is that of the email's signals, in 0.30..0.95 |
| `MlClassifier.ConfidenceBaseline` | server/services/mlClassifier.ts:82-83 | confidence is exactly 0.30 iff no spam keyword, phishing keyword, urgent pattern or suspicious domain occurs |
| `MlClassifier.CapitalDomainEntryNeverMatches` | server/services/mlClassifier.ts:26-40 | the entry "paypaI" is never found in any lower-cased sender |
| `MlClassifier.CaseOnlyAffectsShouting` | server/services/mlClassifier.ts:31-62 | inputs equal up to letter case give the same keyword, domain and exclamation signals, and the same result when their shouting flags agree |
| `MlClassifier.LowerSubjectNeverShouts` | server/services/mlClassifier.ts:61-62 | the caps bonus reads the original subject: a lower-cased subject never earns it |
| `MlClassifier.AppendingNeverLowersScore` | server/services/mlClassifier.ts:31-69 | appending text to the body never lowers the risk score |
| `GptAnalysis.ReplyCategory` | server/services/openai.ts:73-80 | spam iff isSpam or score >= 80; trusted iff not spam and the score is missing or below 20; suspicious otherwise |
| `GptAnalysis.ClampedScore` | server/services/openai.ts:83 | the returned score is in 0..100, a missing score becomes 0, and a score already in range is kept |
| `GptAnalysis.CategoryAgreesWithClampedScore` | server/services/openai.ts:73-83 | the category computed on the raw score equals the one the rule gives on the clamped score |
| `GptAnalysis.FallbackAnalysis` | server/services/openai.ts:93-120 | the fallback score is min(100, 15 * distinct fallback keywords present + draw); isSpam and spam hold iff score >= 60, suspicious iff 20..59, trusted iff below 20; the reasoning names the keyword count, whose digits read back as that count |
| `GptAnalysis.FallbackWithoutKeywordsIsTrusted` | server/services/openai.ts:98-113 | with no fallback keyword the score is the draw alone and the category is trusted |
| `GptAnalysis.AnalyzeEmailWithGpt` | server/services/openai.ts:15-122 | the score is always in 0..100. A trusted sender gets trusted, not spam, score 1..10. A reply gets the rule's category and the clamped score, and its reasoning, or "Analysis completed" when that is missing or empty. A failure gets the fallback |
| `GptAnalysis.TrustedSenderSkipsModel` | server/services/openai.ts:22-29 | for a trusted sender the result does not depend on the model call's outcome or the fallback draw |
| `Routes.Combine` | server/routes.ts:25-28 | trusted: category trusted and score min(model score, 15); otherwise: the model's category, score at least both inputs and equal to one of them (their maximum) |
| `Routes.MlCategoryNeverDecides` | server/routes.ts:19-28 | the heuristic category never affects the verdict, and for a trusted sender neither does the heuristic score |
| `Routes.CombinedScoreInRange` | server/routes.ts:27-28 | with both scores in 0..100 the combined score is in 0..100 |
| `Routes.StoredFields` | server/routes.ts:31-39 | the row carries the request's sender, subject and body, the verdict's category name and score, and the reasoning. isBlocked is set to whether the category is spam, and isTrustedSender is left unset |
| `Routes.AnalyzeEmail` | server/routes.ts:11-40 | an invalid request is rejected and nothing is stored. Otherwise one email is appended, and it has: <br>- the combined verdict's category and score and the model step's reasoning; <br>- a category that is one of the three; <br>- blocked iff spam; <br>- isTrustedSender false; <br>- a score in 0..100. <br>An allowlisted sender is stored trusted with score 1..10. Any other sender gets the model's category and the higher of the two scorers' scores |
| `Routes.AllowlistedSenderIsTrusted` | server/routes.ts:15-38 | after a sender is added to the allowlist, its analysed emails are stored trusted, unblocked, with score at most 15 |
| `Routes.FetchEmail` | server/routes.ts:68-78 | returns the email with that id, or not-found iff no email has it |
| `Routes.RemoveEmail` | server/routes.ts:81-91 | not-found iff no email has that id; otherwise exactly the emails with that id are removed, every other email is kept, and the senders and progress are untouched |
| `Routes.AddTrustedSender` | server/routes.ts:104-121 | rejected as already trusted iff the exact address is on the list, creating nothing; otherwise exactly the row built from the request (address, name, generated id and time) is appended and addresses stay unique |
| `Routes.AddTwiceRejected` | server/routes.ts:108-112 | adding the same address a second time is rejected with "Sender already trusted" |
| `Routes.RemoveTrustedSender` | server/routes.ts:124-134 | not-found iff no sender has that id; otherwise exactly the senders with that id are removed, every other sender is kept, and the emails and progress are untouched |
| `Storage.GetEmailById` | server/storage.ts:53-56 | returns a stored email with that id, or nothing iff none has it |
| `Storage.CreateEmail` | server/storage.ts:58-64 | appends exactly the row built from the insert shape and returns it |
| `Storage.DeleteEmail` | server/storage.ts:75-78 | reports true iff a row had the id. When nothing is removed the store is unchanged. Otherwise every other row is kept and none with the id remains |
| `Storage.GetTrustedSenderByEmail` | server/storage.ts:84-90 | finds a sender iff one has exactly that address (case-sensitive equality) |
| `Storage.CreateTrustedSender` | server/storage.ts:92-98 | the insert fails on the unique address column iff the address is present; otherwise it appends the row and keeps addresses unique |
| `Storage.DeleteTrustedSender` | server/storage.ts:100-103 | reports true iff a row had the id. When nothing is removed the store is unchanged. Otherwise every other row is kept |
| `Storage.DeleteKeepsSendersUnique` | server/storage.ts:100-103 | deleting senders keeps addresses unique |
| `Storage.GetEmailStats` | server/storage.ts:105-127 | an empty list gives all zeros; total is the list length; each category count is the number of emails stored with that category; the average is the rounded mean risk score |
| `Storage.CategoryCountsPartition` | server/storage.ts:119-121 | trusted + suspicious + spam <= total, with equality when every category is one of the three |
| `Storage.StatsPartition` | server/storage.ts:113-121 | the stats record's three category counts sum to at most its total, and to exactly the total when every stored category is one of the three |
| `Storage.AverageRiskInRange` | server/storage.ts:123-124 | with every stored score in 0..100 the average is in 0..100 |
| `Storage.GetUserProgress` | server/storage.ts:137-143 | returns a record of the user (default_user when none is named), or nothing iff none exists |
| `Storage.UpdateUserProgress` | server/storage.ts:145-167 | with existing rows, the fields are set on every row of the user and other rows are untouched; otherwise one row carrying the user id and the fields is inserted |
| `Storage.UpsertThenRead` | server/storage.ts:145-167 | when the fields leave the user id unset or equal to the user, reading the user's progress after the upsert returns the record the upsert returned |
| `Storage.GetRandomEmailForTraining` | server/storage.ts:169-176 | returns nothing iff the list is empty, otherwise an element of the list |
| `Schema.EmailFromInsert` | shared/schema.ts:6-17 | the generated id and timestamp are supplied. The risk score defaults to 0, and isBlocked and isTrustedSender default to false |
| `Schema.TrustedSenderFromInsert` | shared/schema.ts:19-24 | the generated id and added-at time are supplied and the address and name are kept |
| `Schema.ProgressFromInsert` | shared/schema.ts:37-50 | every given field is stored as given. Otherwise userId defaults to default_user, every counter (sessions, correct, accuracy, streak, level, experience) defaults to 0, and badges, weak areas and strengths default to null |
| `Schema.ApplyProgressFields` | server/storage.ts:146-150 | an SQL SET overwrites exactly the given fields and keeps the id and last-updated time |
| `Schema.ParseAnalyzeRequest` | shared/schema.ts:62-66 | a request is accepted iff the sender passes the address check and subject and body are non-empty |
| `Schema.CategoryNameInjective` | shared/schema.ts:11 | the three category names are distinct |
| `Coaching.GenerateCoachingFeedback` | server/services/coaching.ts:11-89 | correct iff the guess equals the category, or is "safe" for "trusted". XP is 10 if correct, else 5. A correct guess gets the praise message and the category's points. A wrong guess gets the message and the 4 points of the kind of miss it was |
| `Coaching.CorrectPoints` | server/services/coaching.ts:24-45 | three learning points for a correct guess on trusted, suspicious or spam, none for any other category |
| `Coaching.MissPoints` | server/services/coaching.ts:46-80 | every kind of wrong guess yields exactly four learning points |
| `Coaching.ClassifyMiss` | server/services/coaching.ts:48-72 | the miss kinds are tried in order: <br>- missed phishing iff the email is spam and the guess was not spam; <br>- missed red flags iff the email is suspicious and the guess was "safe"; <br>- over-cautious iff the email is trusted and the guess was not "safe" |
| `Coaching.NextLevel` | server/services/coaching.ts:121-125 | the level never decreases, never exceeds 4 when it starts at most 4, and is untouched outside 0..3 |
| `Coaching.NextLevelTracksThresholds` | server/services/coaching.ts:121-125 | a level equal to the number of thresholds {10,25,50,100} reached stays equal to it after any increase of the session count |
| `Coaching.AwardBadges` | server/services/coaching.ts:135-147 | badges are only appended. A badge is present afterwards iff it was present before or its streak, accuracy or session condition holds. No duplicates are introduced |
| `Coaching.ParseBadges` | server/services/coaching.ts:128-133 | a missing or unparsable badge column reads as an empty list |
| `Coaching.SessionFields` | server/services/coaching.ts:149-157 | the update never writes userId, weakAreas or strengths |
| `Coaching.Advance` | server/services/coaching.ts:113-157 | one session after the first does the following: <br>- sessions +1; correct +1 iff correct, keeping correct <= sessions; <br>- accuracy is the rounded percentage; <br>- streak is old+1 or 0; <br>- experience is capped at 100 and never decreases; <br>- level is monotone and at most 4; <br>- badges are appended only; <br>- weakAreas and strengths are untouched |
| `Coaching.AccuracyInRange` | server/services/coaching.ts:116 | accuracy is in 0..100 when correct <= sessions |
| `Coaching.StartProgress` | server/services/coaching.ts:98-111 | the first session gives: <br>- sessions 1; <br>- correct 1/0, accuracy 100/0 and streak 1/0; <br>- level 0; <br>- experience equal to the XP; <br>- empty badge, weak-area and strength lists |
| `Coaching.UpdateUserProgressAfterSession` | server/services/coaching.ts:91-159 | a new user gets the first-session record appended. For an existing user, no row is added, and every row of that user gets the later-session update; that record is read back as the advanced record. Other users' rows are untouched |
| `Coaching.StartIsConsistent` | server/services/coaching.ts:98-111 | the first-session record satisfies the progress invariant |
| `Coaching.AdvancePreservesConsistent` | server/services/coaching.ts:113-157 | every later session preserves the invariant, which says: <br>- correct <= sessions; <br>- accuracy is the rounded percentage; <br>- streak <= correct; <br>- level is the number of thresholds reached; <br>- experience is in 0..100; <br>- badges are distinct; <br>- Training Veteran is held iff sessions >= 50 |
| `Coaching.ConsistentBounds` | server/services/coaching.ts:116-125 | in reachable records accuracy is in 0..100 and level in 0..4 |
| `StatsPanel.GetPercentage` | client/src/components/StatsPanel.tsx:18-21 | 0 for a zero total; otherwise count/total*100 rounded half up |
| `StatsPanel.PercentageInRange` | client/src/components/StatsPanel.tsx:18-21 | for 0 <= count <= total the percentage is in 0..100 |
| `StatsPanel.PercentageEnds` | client/src/components/StatsPanel.tsx:20 | count = total > 0 gives 100 and count 0 gives 0 |
| `Dashboard.FilterEmails` | client/src/pages/dashboard.tsx:20-23 | "all" returns the list unchanged; otherwise exactly the emails of that category are kept, and the list never grows |
| `Dashboard.FilterEmailsKeepsOrderAndCopies` | client/src/pages/dashboard.tsx:20-23 | the result is an order-preserving subsequence that keeps every copy of every shown email and none of the others |
| `Dashboard.EmptyStateTitle` | client/src/pages/dashboard.tsx:82 | "No Emails Yet" for all; otherwise "No " + name with only its first letter upper-cased + " Emails" |
| `EmailCard.GetStatusConfig` | client/src/components/EmailCard.tsx:76-135 | each category has its own badge and priority, and an unrecognised category gets the "Safe"/"Normal" configuration |
| `EmailCard.HoursSince` | client/src/components/EmailCard.tsx:145 | the elapsed whole hours are the floor of the elapsed milliseconds over 3600000 |
| `EmailCard.FormatTimestamp` | client/src/components/EmailCard.tsx:142-155 | under one hour, or in the future, gives "Just now"; 1..23 hours gives the hour count; 24 or more gives floor(hours/24) days |
| `EmailCard.FormatTimestampCases` | client/src/components/EmailCard.tsx:145-154 | in terms of elapsed milliseconds: under an hour gives "Just now", under a day an hour count in 1..23, otherwise a day count >= 1 |
| `EmailCard.AgoReadsBack` | client/src/components/EmailCard.tsx:150-153 | the number in an age text reads back as the count, and the plural "s" appears iff the count exceeds 1 |
| `EmailCard.TruncateBody` | client/src/components/EmailCard.tsx:179 | a body over 200 characters shows its first 200 plus "..."; a shorter one is unchanged; at most 203 characters are shown |
| `EmailCard.ShowsReasoning` | client/src/components/EmailCard.tsx:183 | the reasoning box appears iff the email is not trusted and has non-empty reasoning |
| `EmailCard.ActionsFor` | client/src/components/EmailCard.tsx:215-266 | Mark Safe and Block appear iff suspicious, Reply and Archive iff trusted, and Quarantined iff spam; Delete always appears |
| `EmailCard.SpamOnlyDeletable` | client/src/components/EmailCard.tsx:248-257 | a spam entry offers no enabled action besides deletion |
| `EmailCard.UnknownCategoryOnlyDeletable` | client/src/components/EmailCard.tsx:215-266 | an unrecognised category offers deletion only |
| `CoachingPanel.GetLevelInfo` | client/src/components/SafetyCoachingPanel.tsx:122-131 | an entry is found iff the level is >= 0; level >= 4 gives the last entry |
| `CoachingPanel.LevelNames` | client/src/components/SafetyCoachingPanel.tsx:124-130 | level 0 is "Email Rookie" and level >= 4 is "Cyber Guardian" |
| `CoachingPanel.RequirementsMatchThresholds` | client/src/components/SafetyCoachingPanel.tsx:123-129 | requirements strictly increase from 0 and equal the session thresholds of the progress update |
| `CoachingPanel.ShownLevelMatchesSessions` | client/src/components/SafetyCoachingPanel.tsx:122-131 | for reachable progress the shown level's requirement is met and the next level's is not |
| `CoachingPanel.SelectGuess` | client/src/components/SafetyCoachingPanel.tsx:265-291 | a guess button sets the selected guess and changes nothing else: the session and the feedback flag are kept |
| `CoachingPanel.HandleSubmitGuess` | client/src/components/SafetyCoachingPanel.tsx:111-114 | nothing is submitted iff no guess is selected or no session is active |
| `CoachingPanel.SubmitSucceeded` | client/src/components/SafetyCoachingPanel.tsx:85-86 | a successful submission shows the feedback and keeps the session and guess |
| `CoachingPanel.StartSessionSucceeded` | client/src/components/SafetyCoachingPanel.tsx:104-108 | a started session becomes current, the guess is cleared and feedback hidden |
| `CoachingPanel.HandleNextSession` | client/src/components/SafetyCoachingPanel.tsx:116-120 | "next" clears the current session and hides feedback, so nothing can be submitted until a session arrives |
| `CoachingPanel.NextThenStartNeedsNewGuess` | client/src/components/SafetyCoachingPanel.tsx:104-120 | after "next" and a new session, a fresh guess is needed before a submission goes out |
| `CoachingPanel.SessionNumber` | client/src/components/SafetyCoachingPanel.tsx:233 | the displayed session number exceeds the completed session count |
| `CoachingPanel.SessionNumberIsNextCount` | client/src/components/SafetyCoachingPanel.tsx:233 | the displayed number, totalSessions + 1, is the session count once that session is recorded |
| `Numeric.RoundDiv` | server/storage.ts:124 | Math.round of a quotient: the largest integer not above a/b + 1/2 |

## Left out

- The chat-completion request and the JSON parsing of its reply are not modelled. They are foreign network code. The call's outcome is the `GptCall` input. Non-integer or non-numeric scores and non-boolean `isSpam` values are not modelled. The sender is only used in the prompt, so `AnalyzeEmailWithGpt` does not take it.
- `Math.random` is replaced by bounded parameters. The random attachment badge on an email card is decoration and is dropped.
- Database queries are replaced by sequences of rows. Not modelled:
  - the SQL ordering of `getEmails` (newest first) and `getTrustedSenders` (by address);
  - database failures;
  - `updateEmail` and `createCoachingSession`, which no modelled handler calls.
- HTTP plumbing is not modelled: request parsing, status codes, response bodies, the "Analysis failed" answer to unexpected errors, and server creation.
- The address check of `z.string().email()` is library behaviour. It is the `isEmail` parameter.
- Floating point is not modelled:
  - Confidence is in integer hundredths. In JavaScript `0.3 + 0.15` is 0.44999999999999996, not 0.45.
  - Percentages and accuracy use exact rational rounding. JavaScript computes `(count / total) * 100` in binary floating point, and e.g. `(29 / 200) * 100` is 14.499999999999998, which the source rounds to 14 where the model gives 15.
- `toLowerCase` is modelled on ASCII letters only. JavaScript also lower-cases non-ASCII letters. Strings are sequences of Unicode characters, while JavaScript lengths count UTF-16 code units. The 200-character preview, the non-empty checks and the capitals ratio can therefore differ for text outside the Basic Multilingual Plane.
- Times are integer milliseconds. `new Date` parsing and invalid dates are not modelled.
- JSON text columns (badges, weak areas, strengths) are abstracted as absent, a list of strings, or malformed. JSON text that parses to something other than an array is not modelled.
- `Coaching.Advance`: requires a non-negative session count. With a stored count of -1 the new count is 0 and the source divides by zero. It writes NaN when the new correct count is 0, and plus or minus Infinity otherwise, whether the guess was right or wrong. Neither is a valid integer for the accuracy column, and the model represents neither. The same precondition applies to `Coaching.SessionFields` and `Coaching.UpdateUserProgressAfterSession`.
- `Storage.GetRandomEmailForTraining`: the pick is an index below the list length. That is what `Math.floor(Math.random() * n)` always produces.
- `StatsPanel.GetPercentage`: the zero-total case and the rounding are modelled. A negative total, which no stats record holds, divides through by its magnitude.
- React rendering, hooks, toasts and query invalidation are not modelled. Neither are the presentational components `FilterTabs`, `EmailInput` and `TrustedSendersPanel`, whose only logic is non-empty form checks. The accuracy display's `toFixed(1)` is left out too.
- `PATCH /api/emails/:id/status` and the `/api/coaching/*` endpoints called by the client are not modelled. Their handlers are not part of this model.
- Two concurrent adds of the same address could both pass the duplicate check. The database's unique constraint would then reject the second, and the source answers "Failed to add trusted sender". The model's store is sequential, so that branch of `AddTrustedSender` is never reached: every rejected add answers "Sender already trusted". Concurrency is not modelled.

=== FILE: coaching.dfy ===
/** The coaching quiz: grading a user's guess against a stored email, and
    the progress record's transition after each session (counters,
    accuracy, streak, capped experience, level chain and badges). */
module Coaching {
  import opened Wrappers
  import opened Numeric
  import opened Sequences
  import opened Schema
  import opened Storage

  datatype Feedback = Feedback(isCorrect: bool, message: string, learningPoints: seq<string>, experience: int)

  /** A guess matches the stored category; "safe" also matches "trusted". */
  predicate IsCorrectGuess(guess: string, actual: string) {
    guess == actual || (guess == "safe" && actual == "trusted")
  }

  const CorrectMessage := "Excellent! You correctly identified this email's risk level."

  const TrustedPoints: seq<string> := [
    "This sender is in your trusted contacts list",
    "Even trusted emails should be reviewed for content",
    "Look for consistent communication patterns from known contacts"]
  const SuspiciousPoints: seq<string> := [
    "You caught the warning signs in this suspicious email",
    "Continue to verify sender identity when in doubt",
    "Check for urgency tactics and unusual requests"]
  const SpamPoints: seq<string> := [
    "Great job identifying this phishing attempt",
    "Trust your instincts when something feels wrong",
    "Always verify unexpected requests through other channels"]

  /** The learning points for a correct guess: three for each known category, none otherwise. */
  function CorrectPoints(actual: string): (points: seq<string>)
    ensures actual == "trusted" || actual == "suspicious" || actual == "spam" ==> |points| == 3
    ensures !(actual == "trusted" || actual == "suspicious" || actual == "spam") ==> points == []
  {
    if actual == "trusted" then TrustedPoints
    else if actual == "suspicious" then SuspiciousPoints
    else if actual == "spam" then SpamPoints
    else []
  }

  /** What a wrong guess missed, in the order the cases are tried. */
  datatype Miss = MissedPhishing | MissedRedFlags | OverCautious | OtherMiss

  function ClassifyMiss(guess: string, actual: string): (m: Miss)
    ensures m == MissedPhishing <==> actual == "spam" && guess != "spam"
    ensures m == MissedRedFlags <==> actual == "suspicious" && guess == "safe"
    ensures m == OverCautious <==> actual == "trusted" && guess != "safe"
  {
    if actual == "spam" && guess != "spam" then MissedPhishing
    else if actual == "suspicious" && guess == "safe" then MissedRedFlags
    else if actual == "trusted" && guess != "safe" then OverCautious
    else OtherMiss
  }

  function MissMessage(m: Miss): string {
    match m
    case MissedPhishing => "This was actually a phishing attempt. Let's learn what to watch for."
    case MissedRedFlags => "This email had some red flags that made it suspicious."
    case OverCautious => "This was actually from a trusted sender, but caution is always good!"
    case OtherMiss => "Not quite right, but every mistake is a learning opportunity."
  }

  const MissedPhishingPoints: seq<string> := [
    "Check for suspicious sender addresses or domains",
    "Look for urgent or threatening language designed to pressure you",
    "Be wary of unexpected requests for personal information",
    "Verify the sender through independent communication if unsure"]
  const MissedRedFlagsPoints: seq<string> := [
    "Look for inconsistencies in sender information",
    "Be cautious of unexpected attachments or links",
    "Trust your gut feeling when something seems off",
    "When in doubt, verify with the supposed sender directly"]
  const OverCautiousPoints: seq<string> := [
    "This sender is in your trusted contacts list",
    "Being cautious is better than being careless",
    "Even trusted emails can be compromised, so stay alert",
    "Continue to verify unusual requests even from known contacts"]
  const OtherMissPoints: seq<string> := [
    "Take time to analyze the sender's address carefully",
    "Look for grammar and spelling errors in the content",
    "Consider the context - was this email expected?",
    "When unsure, it's always safer to be cautious"]

  /** Four learning points for each kind of miss. */
  function MissPoints(m: Miss): (points: seq<string>)
    ensures |points| == 4
  {
    match m
    case MissedPhishing => MissedPhishingPoints
    case MissedRedFlags => MissedRedFlagsPoints
    case OverCautious => OverCautiousPoints
    case OtherMiss => OtherMissPoints
  }

  /** `generateCoachingFeedback`. */
  function GenerateCoachingFeedback(guess: string, email: Email): (f: Feedback)
    ensures f.isCorrect <==> IsCorrectGuess(guess, email.category)
    ensures f.experience == if f.isCorrect then 10 else 5
    ensures f.isCorrect ==> f.message == CorrectMessage
    ensures f.isCorrect ==> f.learningPoints == CorrectPoints(email.category)
    ensures !f.isCorrect ==> f.message == MissMessage(ClassifyMiss(guess, email.category))
    ensures !f.isCorrect ==> |f.learningPoints| == 4
    ensures !f.isCorrect ==> f.learningPoints == MissPoints(ClassifyMiss(guess, email.category))
  {
    var actual := email.category;
    if IsCorrectGuess(guess, actual) then
      Feedback(true, CorrectMessage, CorrectPoints(actual), 10)
    else
      var miss := ClassifyMiss(guess, actual);
      Feedback(false, MissMessage(miss), MissPoints(miss), 5)
  }

  /** Session counts at which the level rises to 1, 2, 3 and 4. */
  const LevelThresholds: seq<int> := [10, 25, 50, 100]

  /** How many level thresholds `sessions` has reached. */
  function ThresholdsReached(sessions: int): nat {
    |Filter(LevelThresholds, (t: int) => sessions >= t)|
  }

  /** The level chain run after each session: each step raises the level by
      one when it sits just below and the session count has reached that
      step's threshold. */
  function NextLevel(level: int, sessions: int): (l: int)
    ensures l >= level
    ensures level <= 4 ==> l <= 4
    ensures level < 0 || level > 3 ==> l == level
  {
    var l1 := if sessions >= 10 && level == 0 then 1 else level;
    var l2 := if sessions >= 25 && l1 == 1 then 2 else l1;
    var l3 := if sessions >= 50 && l2 == 2 then 3 else l2;
    if sessions >= 100 && l3 == 3 then 4 else l3
  }

  lemma ThresholdsReachedValues(sessions: int)
    ensures sessions < 10 ==> ThresholdsReached(sessions) == 0
    ensures 10 <= sessions < 25 ==> ThresholdsReached(sessions) == 1
    ensures 25 <= sessions < 50 ==> ThresholdsReached(sessions) == 2
    ensures 50 <= sessions < 100 ==> ThresholdsReached(sessions) == 3
    ensures 100 <= sessions ==> ThresholdsReached(sessions) == 4
  {
    var f := (t: int) => sessions >= t;
    assert [100][1..] == [];
    assert |Filter([100], f)| == (if sessions >= 100 then 1 else 0);
    assert [50, 100][1..] == [100];
    assert |Filter([50, 100], f)| == (if sessions >= 50 then 1 else 0) + |Filter([100], f)|;
    assert [25, 50, 100][1..] == [50, 100];
    assert |Filter([25, 50, 100], f)| == (if sessions >= 25 then 1 else 0) + |Filter([50, 100], f)|;
    assert LevelThresholds[1..] == [25, 50, 100];
    assert |Filter(LevelThresholds, f)| == (if sessions >= 10 then 1 else 0) + |Filter([25, 50, 100], f)|;
  }

  /** A level that counts the thresholds reached keeps doing so: the chain
      catches up however many thresholds the session count has passed. */
  lemma NextLevelTracksThresholds(before: int, after: int)
    requires before <= after
    ensures NextLevel(ThresholdsReached(before), after) == ThresholdsReached(after)
  {
    ThresholdsReachedValues(before);
    ThresholdsReachedValues(after);
  }

  const StreakMaster := "5-Streak Master"
  const StreakChampion := "10-Streak Champion"
  const AccuracyExpert := "Accuracy Expert"
  const TrainingVeteran := "Training Veteran"

  /** Whether the new session values earn badge `b`. */
  predicate Earned(b: string, streak: int, accuracy: int, sessions: int) {
    || (b == StreakMaster && streak >= 5)
    || (b == StreakChampion && streak >= 10)
    || (b == AccuracyExpert && accuracy >= 80 && sessions >= 10)
    || (b == TrainingVeteran && sessions >= 50)
  }

  /** Appends `b` when `earned` holds and `b` is not yet present. */
  function Award(badges: seq<string>, b: string, earned: bool): (r: seq<string>)
    ensures |badges| <= |r| && r[..|badges|] == badges
    ensures forall x :: x in r <==> x in badges || (earned && x == b)
    ensures Distinct(badges) ==> Distinct(r)
  {
    if earned && b !in badges then badges + [b] else badges
  }

  /** The badge rules in their order. */
  function AwardBadges(badges: seq<string>, streak: int, accuracy: int, sessions: int): (r: seq<string>)
    ensures |badges| <= |r| && r[..|badges|] == badges
    ensures forall b :: b in r <==> b in badges || Earned(b, streak, accuracy, sessions)
    ensures Distinct(badges) ==> Distinct(r)
  {
    var b1 := Award(badges, StreakMaster, streak >= 5);
    var b2 := Award(b1, StreakChampion, streak >= 10);
    var b3 := Award(b2, AccuracyExpert, accuracy >= 80 && sessions >= 10);
    Award(b3, TrainingVeteran, sessions >= 50)
  }

  /** The stored badge list: a missing or unparsable column reads as empty. */
  function ParseBadges(j: JsonList): (r: seq<string>)
    ensures j.Items? ==> r == j.items
    ensures !j.Items? ==> r == []
  {
    match j
    case Items(bs) => bs
    case _ => []
  }

  /** The fields written for a user's first session. */
  function FirstSessionFields(userId: string, isCorrect: bool, xp: int): ProgressFields {
    ProgressFields(
      Some(userId), Some(1), Some(if isCorrect then 1 else 0), Some(if isCorrect then 100 else 0),
      Some(if isCorrect then 1 else 0), Some(0), Some(xp),
      Some(Items([])), Some(Items([])), Some(Items([])))
  }

  /** The fields written after a later session; weak areas and strengths are not among them. */
  function SessionFields(p: UserProgress, isCorrect: bool, xp: int): (f: ProgressFields)
    requires p.totalSessions >= 0
    ensures f.userId.None? && f.weakAreas.None? && f.strengths.None?
  {
    var sessions := p.totalSessions + 1;
    var correct := p.correctGuesses + (if isCorrect then 1 else 0);
    var accuracy := RoundDiv(100 * correct, sessions);
    var streak := if isCorrect then p.streak + 1 else 0;
    var experience := Min(100, p.experience + xp);
    var level := NextLevel(p.level, sessions);
    var badges := AwardBadges(ParseBadges(p.badges), streak, accuracy, sessions);
    ProgressFields(None, Some(sessions), Some(correct), Some(accuracy), Some(streak),
                   Some(level), Some(experience), Some(Items(badges)), None, None)
  }

  /** One session's effect on an existing progress record. */
  function Advance(p: UserProgress, isCorrect: bool, xp: int): (q: UserProgress)
    requires p.totalSessions >= 0
    ensures q.totalSessions == p.totalSessions + 1
    ensures q.correctGuesses == p.correctGuesses + (if isCorrect then 1 else 0)
    ensures 0 <= p.correctGuesses <= p.totalSessions ==> 0 <= q.correctGuesses <= q.totalSessions
    ensures q.accuracy == RoundDiv(100 * q.correctGuesses, q.totalSessions)
    ensures 2 * q.totalSessions * q.accuracy <= 200 * q.correctGuesses + q.totalSessions
                                             < 2 * q.totalSessions * (q.accuracy + 1)
    ensures q.streak == if isCorrect then p.streak + 1 else 0
    ensures q.experience <= 100
    ensures q.experience == p.experience + xp || (q.experience == 100 && p.experience + xp >= 100)
    ensures xp >= 0 && p.experience <= 100 ==> q.experience >= p.experience
    ensures q.level == NextLevel(p.level, q.totalSessions)
    ensures q.level >= p.level
    ensures p.level <= 4 ==> q.level <= 4
    ensures q.badges.Items?
    ensures var before := ParseBadges(p.badges);
      && |before| <= |q.badges.items| && q.badges.items[..|before|] == before
      && (forall b :: b in q.badges.items <==> b in before || Earned(b, q.streak, q.accuracy, q.totalSessions))
      && (Distinct(before) ==> Distinct(q.badges.items))
    ensures q.weakAreas == p.weakAreas && q.strengths == p.strengths
    ensures q.id == p.id && q.userId == p.userId && q.lastUpdated == p.lastUpdated
  {
    ApplyProgressFields(p, SessionFields(p, isCorrect, xp))
  }

  /** With correct guesses between 0 and the session count, accuracy is a percentage. */
  lemma AccuracyInRange(p: UserProgress, isCorrect: bool, xp: int)
    requires 0 <= p.correctGuesses <= p.totalSessions
    ensures 0 <= Advance(p, isCorrect, xp).accuracy <= 100
  {
    var q := Advance(p, isCorrect, xp);
    RoundDivBounds(100 * q.correctGuesses, q.totalSessions, 100);
  }

  /** The record created by a user's first session. */
  function StartProgress(userId: string, isCorrect: bool, xp: int, id: string, now: int): (p: UserProgress)
    ensures p.userId == userId && p.totalSessions == 1 && p.level == 0 && p.experience == xp
    ensures p.correctGuesses == (if isCorrect then 1 else 0)
    ensures p.accuracy == (if isCorrect then 100 else 0)
    ensures p.streak == (if isCorrect then 1 else 0)
    ensures p.badges == Items([])
    ensures p.weakAreas == Items([]) && p.strengths == Items([])
  {
    ProgressFromInsert(FirstSessionFields(userId, isCorrect, xp), id, now)
  }

  /** `updateUserProgressAfterSession` over the progress table. */
  function UpdateUserProgressAfterSession(rows: seq<UserProgress>, userId: string, isCorrect: bool, xp: int,
                                          id: string, now: int): (r: seq<UserProgress>)
    requires var existing := GetUserProgress(rows, Some(userId));
      existing.Some? ==> existing.value.totalSessions >= 0
    ensures var existing := GetUserProgress(rows, Some(userId));
      && (existing.None? ==> r == rows + [StartProgress(userId, isCorrect, xp, id, now)])
      && (existing.Some? ==> GetUserProgress(r, Some(userId)) == Some(Advance(existing.value, isCorrect, xp)))
    ensures |r| >= |rows|
    ensures forall i :: 0 <= i < |rows| && rows[i].userId != userId ==> r[i] == rows[i]
    ensures var existing := GetUserProgress(rows, Some(userId));
      existing.Some? ==>
        && |r| == |rows|
        && forall i :: 0 <= i < |rows| && rows[i].userId == userId ==>
             r[i] == ApplyProgressFields(rows[i], SessionFields(existing.value, isCorrect, xp))
  {
    var existing := GetUserProgress(rows, Some(userId));
    if existing.None? then
      UpdateUserProgress(rows, userId, FirstSessionFields(userId, isCorrect, xp), id, now).0
    else
      var p := existing.value;
      var f := SessionFields(p, isCorrect, xp);
      UpsertThenRead(rows, userId, f, id, now);
      UpdateUserProgress(rows, userId, f, id, now).0
  }

  /** The invariant of every record the coaching flow produces. */
  predicate Consistent(p: UserProgress) {
    && 1 <= p.totalSessions
    && 0 <= p.correctGuesses <= p.totalSessions
    && p.accuracy == RoundDiv(100 * p.correctGuesses, p.totalSessions)
    && 0 <= p.streak <= p.correctGuesses
    && p.level == ThresholdsReached(p.totalSessions)
    && 0 <= p.experience <= 100
    && p.badges.Items?
    && Distinct(p.badges.items)
    && (TrainingVeteran in p.badges.items <==> p.totalSessions >= 50)
  }

  /** A first-session record is consistent. */
  lemma StartIsConsistent(userId: string, isCorrect: bool, xp: int, id: string, now: int)
    requires 0 <= xp <= 100
    ensures Consistent(StartProgress(userId, isCorrect, xp, id, now))
  {
    ThresholdsReachedValues(1);
  }

  /** Every later session keeps the record consistent. */
  lemma AdvancePreservesConsistent(p: UserProgress, isCorrect: bool, xp: int)
    requires Consistent(p) && xp >= 0
    ensures Consistent(Advance(p, isCorrect, xp))
  {
    var q := Advance(p, isCorrect, xp);
    NextLevelTracksThresholds(p.totalSessions, q.totalSessions);
    assert q.level == ThresholdsReached(q.totalSessions);
    assert 0 <= q.streak <= q.correctGuesses;
    assert Distinct(q.badges.items);
    assert TrainingVeteran in q.badges.items <==> TrainingVeteran in p.badges.items || q.totalSessions >= 50;
  }

  /** In a consistent record accuracy is a percentage and the level is at most 4. */
  lemma ConsistentBounds(p: UserProgress)
    requires Consistent(p)
    ensures 0 <= p.accuracy <= 100 && 0 <= p.level <= 4
  {
    RoundDivBounds(100 * p.correctGuesses, p.totalSessions, 100);
  }
}

=== FILE: coaching_panel.dfy ===
/** The coaching quiz panel: the level table shown to the user and the
    panel's own state (current session, selected guess, feedback shown). */
module CoachingPanel {
  import opened Wrappers
  import opened Schema
  import Coaching

  datatype LevelInfo = LevelInfo(name: string, color: string, requirement: int)

  const Levels: seq<LevelInfo> := [
    LevelInfo("Email Rookie", "text-gray-400", 0),
    LevelInfo("Security Cadet", "text-blue-400", 10),
    LevelInfo("Threat Hunter", "text-green-400", 25),
    LevelInfo("Phishing Expert", "text-purple-400", 50),
    LevelInfo("Cyber Guardian", "text-yellow-400", 100)]

  /** `getLevelInfo`: the entry at `min(level, 4)`; a negative level indexes
      outside the table and finds nothing. */
  function GetLevelInfo(level: int): (r: Option<LevelInfo>)
    ensures r.Some? <==> level >= 0
    ensures 0 <= level < |Levels| ==> r == Some(Levels[level])
    ensures level >= |Levels| - 1 ==> r == Some(Levels[|Levels| - 1])
  {
    var i := if level < |Levels| - 1 then level else |Levels| - 1;
    if 0 <= i then Some(Levels[i]) else None
  }

  /** The named ends of the table. */
  lemma LevelNames(level: int)
    ensures GetLevelInfo(0).Some? && GetLevelInfo(0).value.name == "Email Rookie"
    ensures level >= 4 ==> GetLevelInfo(level).Some? && GetLevelInfo(level).value.name == "Cyber Guardian"
  {
  }

  /** Requirements strictly increase and are the session thresholds the
      progress update uses. */
  lemma RequirementsMatchThresholds()
    ensures forall i, j :: 0 <= i < j < |Levels| ==> Levels[i].requirement < Levels[j].requirement
    ensures |Levels| == |Coaching.LevelThresholds| + 1 && Levels[0].requirement == 0
    ensures forall i :: 0 <= i < |Coaching.LevelThresholds| ==>
      Levels[i + 1].requirement == Coaching.LevelThresholds[i]
  {
  }

  /** For every record the coaching flow produces, the level shown has its
      requirement met and the next one not yet. */
  lemma ShownLevelMatchesSessions(p: UserProgress)
    requires Coaching.Consistent(p)
    ensures GetLevelInfo(p.level).Some?
    ensures GetLevelInfo(p.level).value.requirement <= p.totalSessions
    ensures p.level + 1 < |Levels| ==> p.totalSessions < Levels[p.level + 1].requirement
  {
    Coaching.ThresholdsReachedValues(p.totalSessions);
  }

  /** A training session as the panel holds it. */
  datatype TrainingSession = TrainingSession(id: string, email: Email)

  datatype PanelState = PanelState(session: Option<TrainingSession>, guess: string, showFeedback: bool)

  /** Clicking one of the three guess buttons. */
  function SelectGuess(s: PanelState, guess: string): (r: PanelState)
    ensures r.guess == guess
    ensures r.session == s.session && r.showFeedback == s.showFeedback
  {
    s.(guess := guess)
  }

  /** `handleSubmitGuess`: the (session id, guess) submitted, or nothing
      without a selected guess or an active session. */
  function HandleSubmitGuess(s: PanelState): (r: Option<(string, string)>)
    ensures r.None? <==> s.guess == "" || s.session.None?
    ensures r.Some? ==> r.value == (s.session.value.id, s.guess)
  {
    if s.guess == "" || s.session.None? then None else Some((s.session.value.id, s.guess))
  }

  /** A successful submission reveals the feedback. */
  function SubmitSucceeded(s: PanelState): (r: PanelState)
    ensures r.showFeedback && r.session == s.session && r.guess == s.guess
  {
    s.(showFeedback := true)
  }

  /** A started session replaces the current one, clears the guess and hides feedback. */
  function StartSessionSucceeded(s: PanelState, session: TrainingSession): (r: PanelState)
    ensures r.session == Some(session) && r.guess == "" && !r.showFeedback
  {
    PanelState(Some(session), "", false)
  }

  /** `handleNextSession`: drops the current session and hides feedback
      before the next session is requested. */
  function HandleNextSession(s: PanelState): (r: PanelState)
    ensures r.session.None? && !r.showFeedback && r.guess == s.guess
    ensures HandleSubmitGuess(r).None?
  {
    s.(session := None, showFeedback := false)
  }

  /** Between "next" and the new session's arrival nothing can be submitted,
      and once it arrives a fresh guess is required. */
  lemma NextThenStartNeedsNewGuess(s: PanelState, session: TrainingSession)
    ensures HandleSubmitGuess(HandleNextSession(s)).None?
    ensures HandleSubmitGuess(StartSessionSucceeded(HandleNextSession(s), session)).None?
    ensures HandleSubmitGuess(SelectGuess(StartSessionSucceeded(HandleNextSession(s), session), "spam"))
         == Some((session.id, "spam"))
  {
  }

  /** The session number shown. */
  function SessionNumber(totalSessions: int): (n: int)
    ensures n > totalSessions
  {
    totalSessions + 1
  }

  /** The number shown during a session is the session count the progress
      record will hold once that session is recorded. */
  lemma SessionNumberIsNextCount(p: UserProgress, isCorrect: bool, xp: int)
    requires p.totalSessions >= 0
    ensures SessionNumber(p.totalSessions) == Coaching.Advance(p, isCorrect, xp).totalSessions
  {
  }
}

=== FILE: dashboard.dfy ===
/** The inbox page: the category filter over the email list and the title
    shown when the filtered list is empty. */
module Dashboard {
  import opened Text
  import opened Sequences
  import opened Schema

  /** The active filter tab. */
  datatype InboxFilter = All | Only(category: Category) {
    function Name(): string {
      match this
      case All => "all"
      case Only(c) => c.Name()
    }
  }

  /** Whether an email is shown under the filter. */
  predicate Shows(f: InboxFilter, e: Email) {
    f == All || e.category == f.Name()
  }

  /** `filteredEmails`. */
  function FilterEmails(emails: seq<Email>, f: InboxFilter): (r: seq<Email>)
    ensures f == All ==> r == emails
    ensures forall i :: 0 <= i < |r| ==> r[i] in emails && Shows(f, r[i])
    ensures forall i :: 0 <= i < |emails| && Shows(f, emails[i]) ==> emails[i] in r
    ensures |r| <= |emails|
  {
    FilterKeepsAllIff(emails, (e: Email) => Shows(f, e));
    Filter(emails, (e: Email) => Shows(f, e))
  }

  /** The filtered list keeps the inbox order and every copy of every shown email. */
  lemma FilterEmailsKeepsOrderAndCopies(emails: seq<Email>, f: InboxFilter, e: Email)
    ensures IsSubsequence(FilterEmails(emails, f), emails)
    ensures multiset(FilterEmails(emails, f))[e] == if Shows(f, e) then multiset(emails)[e] else 0
  {
    FilterIsSubsequence(emails, (x: Email) => Shows(f, x));
    FilterMultiplicity(emails, (x: Email) => Shows(f, x), e);
  }

  /** The heading of the empty inbox: the filter name with only its first letter upper-cased. */
  function EmptyStateTitle(f: InboxFilter): (t: string)
    ensures f == All ==> t == "No Emails Yet"
    ensures f.Only? ==> |t| == |f.Name()| + 10
    ensures f.Only? ==> t[..3] == "No " && t[3] == UpperChar(f.Name()[0]) && t[4..|t| - 7] == f.Name()[1..]
    ensures f.Only? ==> t[|t| - 7..] == " Emails"
  {
    if f == All then "No Emails Yet" else "No " + Capitalize(f.Name()) + " Emails"
  }
}

=== FILE: email_card.dfy ===
/** One inbox entry: its status presentation by category, the relative
    age text, the body preview and the actions offered. */
module EmailCard {
  import opened Text
  import opened Schema

  /** Badge text and priority line chosen by the stored category. */
  datatype StatusConfig = StatusConfig(badgeText: string, priority: string, glow: string)

  const TrustedConfig := StatusConfig("\U{2705} Trusted", "High Priority", "trusted-glow")
  const SuspiciousConfig := StatusConfig("\U{26A0}\U{FE0F} Suspicious", "Requires Review", "suspicious-glow")
  const SpamConfig := StatusConfig("\U{274C} Phishing", "BLOCKED", "danger-glow")
  const SafeConfig := StatusConfig("\U{2705} Safe", "Normal", "trusted-glow")

  /** `getStatusConfig`: an unrecognised category is shown as "Safe" with normal priority. */
  function GetStatusConfig(category: string): (c: StatusConfig)
    ensures category == "trusted" ==> c == TrustedConfig
    ensures category == "suspicious" ==> c == SuspiciousConfig
    ensures category == "spam" ==> c == SpamConfig
    ensures category != "trusted" && category != "suspicious" && category != "spam" ==> c == SafeConfig
  {
    if category == "trusted" then TrustedConfig
    else if category == "suspicious" then SuspiciousConfig
    else if category == "spam" then SpamConfig
    else SafeConfig
  }

  const MillisPerHour := 1000 * 60 * 60

  /** Whole hours elapsed, `Math.floor((now - sent) / 3600000)`; negative for a future time. */
  function HoursSince(now: int, sent: int): (h: int)
    ensures h * MillisPerHour <= now - sent < (h + 1) * MillisPerHour
  {
    (now - sent) / MillisPerHour
  }

  /** "N unit ago", with a plural `s` when N is more than one. */
  function Ago(n: nat, unit: string): string {
    NatToString(n) + unit + (if n > 1 then "s" else "") + " ago"
  }

  /** The count in an "ago" text reads back as the count, and the plural `s`
      appears exactly when the count exceeds one. */
  lemma AgoReadsBack(n: nat, unit: string)
    ensures var d := NatToString(n);
      var t := Ago(n, unit);
      && t[..|d|] == d && ParseNat(t[..|d|]) == n
      && t[|d|..|d| + |unit|] == unit
      && (|t| == |d| + |unit| + 5 <==> n > 1)
  {
    var d := NatToString(n);
    var t := Ago(n, unit);
    assert t[..|d|] == d;
    assert t[|d|..|d| + |unit|] == unit;
    NatToStringRoundTrip(n);
  }

  /** `formatTimestamp`: under one hour (including a future time) "Just now",
      under a day the hours, otherwise the whole days. */
  function FormatTimestamp(now: int, sent: int): (r: string)
    ensures HoursSince(now, sent) < 1 ==> r == "Just now"
    ensures 1 <= HoursSince(now, sent) < 24 ==> r == Ago(HoursSince(now, sent), " hour")
    ensures HoursSince(now, sent) >= 24 ==> r == Ago(HoursSince(now, sent) / 24, " day")
  {
    var hours := HoursSince(now, sent);
    if hours < 1 then "Just now"
    else if hours < 24 then Ago(hours, " hour")
    else Ago(hours / 24, " day")
  }

  /** A time sent one to 23 hours ago shows that many hours, a time sent
      24 hours ago or earlier shows a day count of at least one, and any
      later time shows "Just now". */
  lemma FormatTimestampCases(now: int, sent: int)
    ensures now - sent < MillisPerHour ==> FormatTimestamp(now, sent) == "Just now"
    ensures MillisPerHour <= now - sent < 24 * MillisPerHour ==>
      exists h :: 1 <= h < 24 && FormatTimestamp(now, sent) == Ago(h, " hour")
    ensures now - sent >= 24 * MillisPerHour ==>
      exists d :: d >= 1 && FormatTimestamp(now, sent) == Ago(d, " day")
  {
    var h := HoursSince(now, sent);
    if now - sent < MillisPerHour {
      assert h < 1;
    } else if now - sent < 24 * MillisPerHour {
      assert 1 <= h < 24;
      assert FormatTimestamp(now, sent) == Ago(h, " hour");
    } else {
      assert h >= 24;
      assert FormatTimestamp(now, sent) == Ago(h / 24, " day");
    }
  }

  const PreviewLength := 200

  /** The body preview: at most 200 characters followed by "..." when cut. */
  function TruncateBody(body: string): (r: string)
    ensures |r| <= PreviewLength + 3
    ensures |body| <= PreviewLength ==> r == body
    ensures |body| > PreviewLength ==> |r| == PreviewLength + 3
    ensures |body| > PreviewLength ==> r[..PreviewLength] == body[..PreviewLength] && r[PreviewLength..] == "..."
  {
    if |body| > PreviewLength then body[..PreviewLength] + "..." else body
  }

  /** The model's reasoning box appears for a non-trusted email with non-empty reasoning. */
  function ShowsReasoning(e: Email): (r: bool)
    ensures r ==> e.category != "trusted"
    ensures r <==> e.gptReasoning.Some? && |e.gptReasoning.value| > 0 && e.category != "trusted"
  {
    e.gptReasoning.Some? && e.gptReasoning.value != "" && e.category != "trusted"
  }

  /** The buttons of an entry. */
  datatype Action = MarkSafe | Block | Reply | Archive | Quarantined | Delete

  /** The actions offered for a category; every entry can be deleted. */
  function ActionsFor(category: string): (r: set<Action>)
    ensures Delete in r
    ensures MarkSafe in r <==> category == "suspicious"
    ensures Block in r <==> category == "suspicious"
    ensures Reply in r <==> category == "trusted"
    ensures Archive in r <==> category == "trusted"
    ensures Quarantined in r <==> category == "spam"
  {
    (if category == "suspicious" then {MarkSafe, Block} else {})
      + (if category == "trusted" then {Reply, Archive} else {})
      + (if category == "spam" then {Quarantined} else {})
      + {Delete}
  }

  /** Whether the button can be pressed; the quarantine button never can. */
  function Enabled(a: Action): bool {
    a != Quarantined
  }

  /** Spam offers no enabled action except deletion. */
  lemma SpamOnlyDeletable(a: Action)
    requires a in ActionsFor("spam") && Enabled(a)
    ensures a == Delete
  {
  }

  /** An unrecognised category offers deletion only. */
  lemma UnknownCategoryOnlyDeletable(category: string)
    requires category != "trusted" && category != "suspicious" && category != "spam"
    ensures ActionsFor(category) == {Delete}
  {
  }
}

=== FILE: gpt_analysis.dfy ===
/** Post-processing around the external language-model scorer: the
    trusted-sender short-circuit, the category rule and score clamp applied
    to the model's reply, and the keyword fallback used when the call fails.
    The call itself is not modelled: its outcome is a parameter, and so are
    the two random draws. */
module GptAnalysis {
  import opened Wrappers
  import opened Numeric
  import opened Text
  import opened Schema
  import MlClassifier
  import Sequences

  /** Outcome of the chat-completion call: the fields read from the JSON
      reply (a missing or non-numeric score is `None`), or a failure of the
      request or of parsing its reply. */
  datatype GptCall = Replied(score: Option<int>, isSpam: bool, reasoning: Option<string>) | Failed

  datatype GptResult = GptResult(phishingRiskScore: int, isSpam: bool, reasoning: string, category: Category)

  const TrustedReasoning := "Email from trusted sender - automatically categorized as safe."
  const DefaultReasoning := "Analysis completed"
  const FallbackPrefix := "GPT analysis unavailable. Fallback analysis detected "
  const FallbackSuffix := " suspicious keywords."

  const FallbackKeywords: seq<string> := [
    "urgent", "immediate", "verify", "suspend", "click here", "limited time",
    "congratulations", "winner", "prize", "free", "act now", "password"]

  /** No fallback keyword is listed twice, so each counts once. */
  lemma FallbackKeywordsDistinct()
    ensures Sequences.Distinct(FallbackKeywords)
  {
  }

  /** The category rule applied to the model's raw reply. A missing score
      fails both comparisons, as `undefined >= n` does. */
  function ReplyCategory(isSpam: bool, score: Option<int>): (c: Category)
    ensures c == Spam <==> isSpam || (score.Some? && score.value >= 80)
    ensures c == Trusted <==> !isSpam && (score.None? || score.value < 20)
  {
    if isSpam || (score.Some? && score.value >= 80) then Spam
    else if score.Some? && score.value >= 20 then Suspicious
    else Trusted
  }

  /** `Math.max(0, Math.min(100, score || 0))`. */
  function ClampedScore(score: Option<int>): (r: int)
    ensures 0 <= r <= 100
    ensures score.None? ==> r == 0
    ensures score.Some? && 0 <= score.value <= 100 ==> r == score.value
    ensures score.Some? && score.value > 100 ==> r == 100
    ensures score.Some? && score.value < 0 ==> r == 0
  {
    Clamp(0, 100, score.GetOr(0))
  }

  /** The category computed from the raw score is the one the same rule gives
      for the clamped score that is returned. */
  lemma CategoryAgreesWithClampedScore(isSpam: bool, score: Option<int>)
    ensures ReplyCategory(isSpam, score) == ReplyCategory(isSpam, Some(ClampedScore(score)))
  {
  }

  /** The keyword heuristic used when the model call fails; `roll` is
      `Math.floor(Math.random() * 20)`. */
  function FallbackAnalysis(subject: string, body: string, roll: int): (r: GptResult)
    requires 0 <= roll < 20
    ensures var k := MlClassifier.CountMatches(FallbackKeywords, MlClassifier.ScannedText(subject, body));
      r.phishingRiskScore == Min(100, 15 * k + roll)
    ensures var k := MlClassifier.CountMatches(FallbackKeywords, MlClassifier.ScannedText(subject, body));
      var d := NatToString(k);
      && |r.reasoning| == |FallbackPrefix| + |d| + |FallbackSuffix|
      && r.reasoning[..|FallbackPrefix|] == FallbackPrefix
      && r.reasoning[|FallbackPrefix|..|FallbackPrefix| + |d|] == d
      && ParseNat(r.reasoning[|FallbackPrefix|..|FallbackPrefix| + |d|]) == k
    ensures var text := MlClassifier.ScannedText(subject, body);
      r.phishingRiskScore == Min(100, 15 * |MlClassifier.Hits(FallbackKeywords, text)| + roll)
    ensures 0 <= r.phishingRiskScore <= 100
    ensures r.isSpam <==> r.phishingRiskScore >= 60
    ensures r.category == Spam <==> r.phishingRiskScore >= 60
    ensures r.category == Suspicious <==> 20 <= r.phishingRiskScore < 60
    ensures r.category == Trusted <==> r.phishingRiskScore < 20
  {
    FallbackKeywordsDistinct();
    MlClassifier.CountMatchesIsDistinctHits(FallbackKeywords, MlClassifier.ScannedText(subject, body));
    var k := MlClassifier.CountMatches(FallbackKeywords, MlClassifier.ScannedText(subject, body));
    var score := Min(100, k * 15 + roll);
    var isSpam := score >= 60;
    var category := if isSpam || score >= 80 then Spam else if score >= 20 then Suspicious else Trusted;
    var d := NatToString(k);
    var reasoning := FallbackPrefix + d + FallbackSuffix;
    NatToStringRoundTrip(k);
    assert reasoning[|FallbackPrefix|..|FallbackPrefix| + |d|] == d;
    GptResult(score, isSpam, reasoning, category)
  }

  /** With no fallback keyword present, the fallback always says trusted. */
  lemma FallbackWithoutKeywordsIsTrusted(subject: string, body: string, roll: int)
    requires 0 <= roll < 20
    requires !MlClassifier.AnyMatch(FallbackKeywords, MlClassifier.ScannedText(subject, body))
    ensures FallbackAnalysis(subject, body, roll).category == Trusted
    ensures FallbackAnalysis(subject, body, roll).phishingRiskScore == roll
  {
    MlClassifier.CountMatchesZeroIffNoMatch(FallbackKeywords, MlClassifier.ScannedText(subject, body));
  }

  /** `analyzeEmailWithGPT`: `trustedRoll` is `Math.floor(Math.random() * 10)`,
      `fallbackRoll` is `Math.floor(Math.random() * 20)`. */
  function AnalyzeEmailWithGpt(subject: string, body: string, isTrusted: bool, call: GptCall,
                               trustedRoll: int, fallbackRoll: int): (r: GptResult)
    requires 0 <= trustedRoll < 10 && 0 <= fallbackRoll < 20
    ensures 0 <= r.phishingRiskScore <= 100
    ensures isTrusted ==> r.category == Trusted && !r.isSpam && 1 <= r.phishingRiskScore <= 10
    ensures isTrusted ==> r.reasoning == TrustedReasoning
    ensures !isTrusted && call.Replied? ==>
      && r.category == ReplyCategory(call.isSpam, call.score)
      && r.phishingRiskScore == ClampedScore(call.score)
      && r.isSpam == call.isSpam
    ensures !isTrusted && call.Replied? && call.reasoning.Some? && call.reasoning.value != "" ==>
      r.reasoning == call.reasoning.value
    ensures !isTrusted && call.Replied? && (call.reasoning.None? || call.reasoning.value == "") ==>
      r.reasoning == DefaultReasoning
    ensures !isTrusted && call.Failed? ==> r == FallbackAnalysis(subject, body, fallbackRoll)
  {
    if isTrusted then
      GptResult(trustedRoll + 1, false, TrustedReasoning, Trusted)
    else match call
      case Replied(score, isSpam, reasoning) =>
        var text := if reasoning.Some? && reasoning.value != "" then reasoning.value else DefaultReasoning;
        GptResult(ClampedScore(score), isSpam, text, ReplyCategory(isSpam, score))
      case Failed =>
        FallbackAnalysis(subject, body, fallbackRoll)
  }

  /** A trusted sender never reaches the model: the result does not depend on
      the call's outcome or on the fallback draw. */
  lemma TrustedSenderSkipsModel(subject: string, body: string, call1: GptCall, call2: GptCall,
                                trustedRoll: int, roll1: int, roll2: int)
    requires 0 <= trustedRoll < 10 && 0 <= roll1 < 20 && 0 <= roll2 < 20
    ensures AnalyzeEmailWithGpt(subject, body, true, call1, trustedRoll, roll1)
         == AnalyzeEmailWithGpt(subject, body, true, call2, trustedRoll, roll2)
  {
  }
}

=== FILE: ml_classifier.dfy ===
/** The local heuristic scorer: counts keyword, pattern and sender-domain
    hits in an email, forms a weighted risk score, clamps it to 0..100 and
    maps it to a category band, together with a confidence figure. */
module MlClassifier {
  import opened Numeric
  import opened Text
  import opened Sequences
  import opened Schema

  const SpamKeywords: seq<string> := [
    "free", "winner", "congratulations", "prize", "lottery", "urgent", "act now",
    "limited time", "click here", "verify now", "suspended", "immediate",
    "guarantee", "no risk", "cash", "money", "earn", "income", "investment"]

  const PhishingKeywords: seq<string> := [
    "verify", "suspend", "urgent", "immediate", "click", "login", "password",
    "account", "security", "confirm", "update", "expires", "locked"]

  /** Look-alike and throw-away mail domains. The entry "paypaI" ends in a
      capital I and is compared against the lower-cased sender. */
  const SuspiciousDomains: seq<string> := [
    "tempmail", "guerrillamail", "10minutemail", "mailinator", "paypaI",
    "arnazon", "microsft", "gmai1", "yah00"]

  const UrgentPatterns: seq<string> := [
    "asap", "immediately", "expires today", "last chance", "final notice",
    "action required", "respond now", "time sensitive"]

  /** Number of entries of `keywords` that occur somewhere in `text`; an entry
      counts once however often it occurs. */
  function CountMatches(keywords: seq<string>, text: string): (n: nat)
    ensures n <= |keywords|
  {
    if keywords == [] then 0
    else (if Contains(text, keywords[0]) then 1 else 0) + CountMatches(keywords[1..], text)
  }

  /** Whether any entry of `keywords` occurs in `text`. */
  predicate AnyMatch(keywords: seq<string>, text: string) {
    exists i :: 0 <= i < |keywords| && Contains(text, keywords[i])
  }

  /** The distinct entries of `keywords` found in `text`. */
  ghost function Hits(keywords: seq<string>, text: string): set<string> {
    set k | k in keywords && Contains(text, k)
  }

  /** For a list without repeats the match count is the number of distinct
      keywords present: each keyword contributes at most once. */
  lemma {:induction false} CountMatchesIsDistinctHits(keywords: seq<string>, text: string)
    requires Distinct(keywords)
    ensures CountMatches(keywords, text) == |Hits(keywords, text)|
  {
    if keywords != [] {
      var rest := keywords[1..];
      assert Distinct(rest);
      CountMatchesIsDistinctHits(rest, text);
      assert keywords[0] !in rest;
      if Contains(text, keywords[0]) {
        assert Hits(keywords, text) == {keywords[0]} + Hits(rest, text);
      } else {
        assert Hits(keywords, text) == Hits(rest, text);
      }
    }
  }

  /** The count is zero exactly when no entry occurs. */
  lemma {:induction false} CountMatchesZeroIffNoMatch(keywords: seq<string>, text: string)
    ensures CountMatches(keywords, text) == 0 <==> !AnyMatch(keywords, text)
  {
    if keywords != [] {
      CountMatchesZeroIffNoMatch(keywords[1..], text);
      if AnyMatch(keywords[1..], text) {
        var i :| 0 <= i < |keywords[1..]| && Contains(text, keywords[1..][i]);
        assert Contains(text, keywords[i + 1]);
      }
      if AnyMatch(keywords, text) && !Contains(text, keywords[0]) {
        var i :| 0 <= i < |keywords| && Contains(text, keywords[i]);
        assert Contains(text, keywords[1..][i - 1]);
      }
    }
  }

  /** Text that contains every keyword `text` contains scores at least as many matches. */
  lemma {:induction false} CountMatchesMonotone(keywords: seq<string>, text: string, more: string)
    requires forall k :: Contains(text, k) ==> Contains(more, k)
    ensures CountMatches(keywords, text) <= CountMatches(keywords, more)
  {
    if keywords != [] {
      CountMatchesMonotone(keywords[1..], text, more);
    }
  }

  /** The indicators the scorer reads from one email. */
  datatype Signals = Signals(
    spamMatches: nat,
    phishingMatches: nat,
    urgentMatches: nat,
    domainSuspicious: bool,
    shouting: bool,
    exclamations: nat)

  /** The lower-cased subject and body, joined by one space. */
  function ScannedText(subject: string, body: string): string {
    ToLower(subject + " " + body)
  }

  /** Reads the indicators: keyword and pattern counts over the lower-cased
      text, domain entries over the lower-cased sender, the capital-letter
      ratio over the ORIGINAL subject (more than half capitals), and the
      number of `!` in the text. */
  function ReadSignals(sender: string, subject: string, body: string): (s: Signals)
    ensures s.spamMatches <= |SpamKeywords|
    ensures s.phishingMatches <= |PhishingKeywords|
    ensures s.urgentMatches <= |UrgentPatterns|
    ensures s.spamMatches == |Hits(SpamKeywords, ScannedText(subject, body))|
    ensures s.phishingMatches == |Hits(PhishingKeywords, ScannedText(subject, body))|
    ensures s.urgentMatches == |Hits(UrgentPatterns, ScannedText(subject, body))|
    ensures s.domainSuspicious <==> AnyMatch(SuspiciousDomains, ToLower(sender))
    ensures s.exclamations == CountChar(ScannedText(subject, body), '!')
    ensures s.shouting <==> 2 * CountUpper(subject) > |subject|
  {
    var text := ScannedText(subject, body);
    KeywordListsDistinct();
    CountMatchesIsDistinctHits(SpamKeywords, text);
    CountMatchesIsDistinctHits(PhishingKeywords, text);
    CountMatchesIsDistinctHits(UrgentPatterns, text);
    Signals(
      CountMatches(SpamKeywords, text),
      CountMatches(PhishingKeywords, text),
      CountMatches(UrgentPatterns, text),
      AnyMatch(SuspiciousDomains, ToLower(sender)),
      2 * CountUpper(subject) > |subject|,
      CountChar(text, '!'))
  }

  /** Three points per exclamation mark, at most 15. */
  function ExclamationPoints(count: nat): (p: nat)
    ensures p <= 15
    ensures count <= 5 ==> p == 3 * count
    ensures count >= 5 ==> p == 15
  {
    Min(3 * count, 15)
  }

  /** The weighted score before clamping. */
  function WeightedScore(s: Signals): int {
    10 * s.spamMatches + 15 * s.phishingMatches + 12 * s.urgentMatches
      + (if s.domainSuspicious then 30 else 0)
      + (if s.shouting then 10 else 0)
      + ExclamationPoints(s.exclamations)
  }

  /** The weighted score is never negative, so only the upper clamp matters,
      and it grows with each indicator. */
  lemma WeightedScoreBounds(s: Signals)
    ensures 0 <= WeightedScore(s)
    ensures WeightedScore(s) >= 10 * s.spamMatches + 15 * s.phishingMatches + 12 * s.urgentMatches
    ensures WeightedScore(s) <= 10 * s.spamMatches + 15 * s.phishingMatches + 12 * s.urgentMatches + 55
  {
  }

  /** Category bands of the clamped score. */
  function Band(score: int): (c: Category)
    ensures c == Spam <==> score >= 70
    ensures c == Suspicious <==> 35 <= score < 70
    ensures c == Trusted <==> score < 35
  {
    if score >= 70 then Spam else if score >= 35 then Suspicious else Trusted
  }

  /** The severity order trusted < suspicious < spam. */
  function Severity(c: Category): nat {
    match c
    case Trusted => 0
    case Suspicious => 1
    case Spam => 2
  }

  /** A higher score never gives a milder category. */
  lemma BandMonotone(a: int, b: int)
    requires a <= b
    ensures Severity(Band(a)) <= Severity(Band(b))
  {
  }

  function IndicatorCount(s: Signals): nat {
    s.spamMatches + s.phishingMatches + s.urgentMatches + (if s.domainSuspicious then 1 else 0)
  }

  /** Confidence in hundredths: 0.30 plus 0.15 per indicator, at most 0.95. */
  function ConfidenceOf(s: Signals): (c: int)
    ensures 30 <= c <= 95
    ensures c == 30 <==> IndicatorCount(s) == 0
    ensures IndicatorCount(s) <= 4 ==> c == 30 + 15 * IndicatorCount(s)
    ensures IndicatorCount(s) >= 5 ==> c == 95
  {
    Min(95, 30 + 15 * IndicatorCount(s))
  }

  datatype MlResult = MlResult(riskScore: int, category: Category, confidence: int)

  /** `classifyEmailWithML`. */
  function ClassifyEmailWithMl(sender: string, subject: string, body: string): (r: MlResult)
    ensures 0 <= r.riskScore <= 100
    ensures r.riskScore == Min(100, WeightedScore(ReadSignals(sender, subject, body)))
    ensures r.category == Band(r.riskScore)
    ensures 30 <= r.confidence <= 95
    ensures r.confidence == ConfidenceOf(ReadSignals(sender, subject, body))
  {
    var s := ReadSignals(sender, subject, body);
    var score := Clamp(0, 100, WeightedScore(s));
    MlResult(score, Band(score), ConfidenceOf(s))
  }

  /** With no keyword, pattern or domain hit the confidence is exactly 0.30,
      and any hit raises it. */
  lemma ConfidenceBaseline(sender: string, subject: string, body: string)
    ensures var text := ScannedText(subject, body);
      ClassifyEmailWithMl(sender, subject, body).confidence == 30
      <==> !AnyMatch(SpamKeywords, text) && !AnyMatch(PhishingKeywords, text)
           && !AnyMatch(UrgentPatterns, text) && !AnyMatch(SuspiciousDomains, ToLower(sender))
  {
    var text := ScannedText(subject, body);
    CountMatchesZeroIffNoMatch(SpamKeywords, text);
    CountMatchesZeroIffNoMatch(PhishingKeywords, text);
    CountMatchesZeroIffNoMatch(UrgentPatterns, text);
  }

  /** The domain entry "paypaI" can never match a sender. */
  lemma CapitalDomainEntryNeverMatches(sender: string)
    ensures SuspiciousDomains[4] == "paypaI"
    ensures !Contains(ToLower(sender), SuspiciousDomains[4])
  {
    UpperPatternNeverInLower(sender, SuspiciousDomains[4], 5);
  }

  /** Letter case in the sender, subject and body changes no keyword, pattern,
      domain or exclamation signal; only the shouting bonus can differ. */
  lemma CaseOnlyAffectsShouting(sender: string, subject: string, body: string,
                                sender': string, subject': string, body': string)
    requires ToLower(sender) == ToLower(sender')
    requires ToLower(subject) == ToLower(subject') && ToLower(body) == ToLower(body')
    ensures ReadSignals(sender, subject, body).(shouting := false)
         == ReadSignals(sender', subject', body').(shouting := false)
    ensures ReadSignals(sender, subject, body).shouting == ReadSignals(sender', subject', body').shouting
         ==> ClassifyEmailWithMl(sender, subject, body) == ClassifyEmailWithMl(sender', subject', body')
  {
    ScannedTextSplits(subject, body);
    ScannedTextSplits(subject', body');
  }

  /** The scanned text is the lower-cased subject and body joined by a space. */
  lemma ScannedTextSplits(subject: string, body: string)
    ensures ScannedText(subject, body) == ToLower(subject) + " " + ToLower(body)
  {
    LowerConcat(subject + " ", body);
    LowerConcat(subject, " ");
    LowerSpace();
  }

  lemma LowerSpace()
    ensures ToLower(" ") == " "
  {
    assert LowerChar(' ') == ' ';
  }

  /** The shouting bonus reads the original subject: a lower-cased subject never earns it. */
  lemma LowerSubjectNeverShouts(sender: string, subject: string, body: string)
    ensures !ReadSignals(sender, ToLower(subject), body).shouting
  {
    LowerHasNoUpper(subject);
  }

  /** A substring of a prefix is a substring of the whole. */
  lemma ContainsExtend(text: string, extra: string, k: string)
    requires Contains(text, k)
    ensures Contains(text + extra, k)
  {
    var i :| 0 <= i <= |text| && OccursAt(text, k, i);
    assert (text + extra)[i..i + |k|] == text[i..i + |k|];
    assert OccursAt(text + extra, k, i);
  }

  /** Appending to the body never lowers the risk score. */
  lemma AppendingNeverLowersScore(sender: string, subject: string, body: string, extra: string)
    ensures ClassifyEmailWithMl(sender, subject, body).riskScore
         <= ClassifyEmailWithMl(sender, subject, body + extra).riskScore
  {
    var text := ScannedText(subject, body);
    var more := ScannedText(subject, body + extra);
    assert subject + " " + (body + extra) == (subject + " " + body) + extra;
    LowerConcat(subject + " " + body, extra);
    assert more == text + ToLower(extra);
    forall k | Contains(text, k) ensures Contains(more, k) {
      ContainsExtend(text, ToLower(extra), k);
    }
    CountMatchesMonotone(SpamKeywords, text, more);
    CountMatchesMonotone(PhishingKeywords, text, more);
    CountMatchesMonotone(UrgentPatterns, text, more);
    CountCharAppend(text, ToLower(extra), '!');
  }

  /** No keyword or pattern list repeats an entry, so every score term
      counts distinct keywords. */
  lemma KeywordListsDistinct()
    ensures Distinct(SpamKeywords) && Distinct(PhishingKeywords)
    ensures Distinct(SuspiciousDomains) && Distinct(UrgentPatterns)
  {
  }
}

=== FILE: numeric.dfy ===
/** Integer helpers standing in for JavaScript's `Math` functions. */
module Numeric {

  function Min(a: int, b: int): (r: int)
    ensures r <= a && r <= b
    ensures r == a || r == b
  {
    if a <= b then a else b
  }

  function Max(a: int, b: int): (r: int)
    ensures r >= a && r >= b
    ensures r == a || r == b
  {
    if a >= b then a else b
  }

  /** `Math.min(hi, Math.max(lo, x))`. */
  function Clamp(lo: int, hi: int, x: int): (r: int)
    requires lo <= hi
    ensures lo <= r <= hi
    ensures lo <= x <= hi ==> r == x
    ensures x < lo ==> r == lo
    ensures x > hi ==> r == hi
  {
    Min(hi, Max(lo, x))
  }

  /** `Math.round(a / b)` for a positive divisor. `Math.round` rounds half-way
      values up, so the result is the largest integer not above a/b + 1/2;
      Dafny's `/` on a positive divisor is floor division. */
  function RoundDiv(a: int, b: int): (r: int)
    requires b > 0
    ensures 2 * b * r <= 2 * a + b < 2 * b * (r + 1)
  {
    (2 * a + b) / (2 * b)
  }

  lemma MulLeftMono(b: int, x: int, y: int)
    requires b > 0 && x <= y
    ensures b * x <= b * y
  {
  }

  /** The rounded quotient of 0 <= a <= k*b by b lies in 0..k. */
  lemma RoundDivBounds(a: int, b: int, k: int)
    requires b > 0 && 0 <= a <= k * b
    ensures 0 <= RoundDiv(a, b) <= k
  {
    var r := RoundDiv(a, b);
    if r < 0 {
      MulLeftMono(2 * b, r + 1, 0);
      assert false;
    }
    if r > k {
      MulLeftMono(2 * b, k + 1, r);
      assert false;
    }
  }

  /** Rounding an exact quotient gives the quotient back. */
  lemma RoundDivExact(q: int, b: int)
    requires b > 0
    ensures RoundDiv(q * b, b) == q
  {
    var r := RoundDiv(q * b, b);
    if r < q {
      MulLeftMono(2 * b, r + 1, q);
      assert false;
    }
    if r > q {
      MulLeftMono(2 * b, q + 1, r);
      assert false;
    }
  }
}

=== FILE: routes.dfy ===
/** The request handlers' decision logic: email analysis (combining the
    heuristic and the model verdicts and storing the result), the allowlist
    endpoints and the not-found answers of the delete endpoints. HTTP status
    codes are represented by the error values. */
module Routes {
  import opened Wrappers
  import opened Numeric
  import opened Schema
  import opened Storage
  import MlClassifier
  import GptAnalysis

  datatype ApiError =
    | InvalidEmailData
    | SenderAlreadyTrusted
    | AddSenderFailed
    | EmailNotFound
    | TrustedSenderNotFound
  {
    function Message(): string {
      match this
      case InvalidEmailData => "Invalid email data"
      case SenderAlreadyTrusted => "Sender already trusted"
      case AddSenderFailed => "Failed to add trusted sender"
      case EmailNotFound => "Email not found"
      case TrustedSenderNotFound => "Trusted sender not found"
    }
  }

  /** The stored verdict for one email. */
  datatype Verdict = Verdict(category: Category, riskScore: int)

  /** The combine rule. An allow-listed sender is trusted and its score is
      capped at 15; otherwise the model's category stands and the score is the
      higher of the two scorers'. */
  function Combine(isTrusted: bool, ml: MlClassifier.MlResult, gpt: GptAnalysis.GptResult): (v: Verdict)
    ensures isTrusted ==> v.category == Trusted
    ensures isTrusted ==> v.riskScore <= 15 && v.riskScore <= gpt.phishingRiskScore
    ensures isTrusted && gpt.phishingRiskScore <= 15 ==> v.riskScore == gpt.phishingRiskScore
    ensures isTrusted && gpt.phishingRiskScore > 15 ==> v.riskScore == 15
    ensures !isTrusted ==> v.category == gpt.category
    ensures !isTrusted ==> v.riskScore >= ml.riskScore && v.riskScore >= gpt.phishingRiskScore
    ensures !isTrusted ==> v.riskScore == ml.riskScore || v.riskScore == gpt.phishingRiskScore
  {
    if isTrusted then Verdict(Trusted, Min(gpt.phishingRiskScore, 15))
    else Verdict(gpt.category, Max(ml.riskScore, gpt.phishingRiskScore))
  }

  /** The heuristic scorer's category never influences the verdict, and its
      score does not for an allow-listed sender. */
  lemma MlCategoryNeverDecides(isTrusted: bool, ml1: MlClassifier.MlResult, ml2: MlClassifier.MlResult,
                               gpt: GptAnalysis.GptResult)
    requires isTrusted || ml1.riskScore == ml2.riskScore
    ensures Combine(isTrusted, ml1, gpt) == Combine(isTrusted, ml2, gpt)
  {
  }

  /** When both scores are in 0..100 so is the combined score. */
  lemma CombinedScoreInRange(isTrusted: bool, ml: MlClassifier.MlResult, gpt: GptAnalysis.GptResult)
    requires 0 <= ml.riskScore <= 100 && 0 <= gpt.phishingRiskScore <= 100
    ensures 0 <= Combine(isTrusted, ml, gpt).riskScore <= 100
  {
  }

  /** The row the analysis endpoint inserts. `isTrustedSender` is not set and
      so keeps its default. */
  function StoredFields(req: AnalyzeRequest, v: Verdict, reasoning: string): (ins: InsertEmail)
    ensures ins.sender == req.sender && ins.subject == req.subject && ins.body == req.body
    ensures ins.category == v.category.Name() && ins.riskScore == Some(v.riskScore)
    ensures ins.gptReasoning == Some(reasoning)
    ensures ins.isBlocked == Some(v.category == Spam)
    ensures ins.isTrustedSender.None?
  {
    InsertEmail(req.sender, req.subject, req.body, v.category.Name(), Some(v.riskScore),
                Some(reasoning), Some(v.category.Name() == "spam"), None)
  }

  /** `POST /api/emails/analyze`. The external call's outcome and the two
      random draws are parameters; `isEmail` is the address check. */
  function AnalyzeEmail(s: Store, req: AnalyzeRequest, isEmail: string -> bool,
                        call: GptAnalysis.GptCall, trustedRoll: int, fallbackRoll: int,
                        id: string, now: int): (r: Result<(Store, Email), ApiError>)
    requires 0 <= trustedRoll < 10 && 0 <= fallbackRoll < 20
    ensures r.Err? <==> ParseAnalyzeRequest(req, isEmail).Err?
    ensures r.Err? ==> r.error == InvalidEmailData
    ensures r.Ok? ==> r.value.0 == s.(emails := s.emails + [r.value.1])
    ensures r.Ok? ==> var e := r.value.1;
      && e.id == id && e.sender == req.sender && e.subject == req.subject && e.body == req.body
      && (e.category == "trusted" || e.category == "suspicious" || e.category == "spam")
      && (e.isBlocked <==> e.category == "spam")
      && !e.isTrustedSender
      && 0 <= e.riskScore <= 100
    ensures r.Ok? ==>
      var isTrusted := GetTrustedSenderByEmail(s, req.sender).Some?;
      var ml := MlClassifier.ClassifyEmailWithMl(req.sender, req.subject, req.body);
      var gpt := GptAnalysis.AnalyzeEmailWithGpt(req.subject, req.body, isTrusted, call, trustedRoll, fallbackRoll);
      var v := Combine(isTrusted, ml, gpt);
      var e := r.value.1;
      && e.category == v.category.Name() && e.riskScore == v.riskScore
      && e.gptReasoning == Some(gpt.reasoning)
    ensures r.Ok? && GetTrustedSenderByEmail(s, req.sender).Some? ==>
      var e := r.value.1;
      e.category == "trusted" && !e.isBlocked && 1 <= e.riskScore <= 10
    ensures r.Ok? && GetTrustedSenderByEmail(s, req.sender).None? ==>
      var e := r.value.1;
      var gpt := GptAnalysis.AnalyzeEmailWithGpt(req.subject, req.body, false, call, trustedRoll, fallbackRoll);
      && e.category == gpt.category.Name()
      && e.riskScore == Max(MlClassifier.ClassifyEmailWithMl(req.sender, req.subject, req.body).riskScore,
                            gpt.phishingRiskScore)
  {
    match ParseAnalyzeRequest(req, isEmail)
    case Err(_) => Err(InvalidEmailData)
    case Ok(req) =>
      var isTrusted := GetTrustedSenderByEmail(s, req.sender).Some?;
      var ml := MlClassifier.ClassifyEmailWithMl(req.sender, req.subject, req.body);
      var gpt := GptAnalysis.AnalyzeEmailWithGpt(req.subject, req.body, isTrusted, call, trustedRoll, fallbackRoll);
      var v := Combine(isTrusted, ml, gpt);
      var (s', e) := CreateEmail(s, StoredFields(req, v, gpt.reasoning), id, now);
      Ok((s', e))
  }

  /** `GET /api/emails/:id`. */
  function FetchEmail(s: Store, id: string): (r: Result<Email, ApiError>)
    ensures r.Ok? ==> r.value in s.emails && r.value.id == id
    ensures r.Err? <==> forall i :: 0 <= i < |s.emails| ==> s.emails[i].id != id
    ensures r.Err? ==> r.error == EmailNotFound
  {
    match GetEmailById(s, id)
    case Some(e) => Ok(e)
    case None => Err(EmailNotFound)
  }

  /** `DELETE /api/emails/:id`: not found when no row has that id, and then
      nothing changes. */
  function RemoveEmail(s: Store, id: string): (r: Result<Store, ApiError>)
    ensures r.Err? <==> forall i :: 0 <= i < |s.emails| ==> s.emails[i].id != id
    ensures r.Err? ==> r.error == EmailNotFound
    ensures r.Ok? ==> r.value.senders == s.senders && r.value.progress == s.progress
    ensures r.Ok? ==> |r.value.emails| < |s.emails|
    ensures r.Ok? ==> forall i :: 0 <= i < |r.value.emails| ==>
                        r.value.emails[i].id != id && r.value.emails[i] in s.emails
    ensures r.Ok? ==> forall i :: 0 <= i < |s.emails| && s.emails[i].id != id ==> s.emails[i] in r.value.emails
  {
    var (s', deleted) := DeleteEmail(s, id);
    if deleted then
      Ok(s')
    else Err(EmailNotFound)
  }

  /** `POST /api/trusted-senders`: an address already on the list is
      rejected and nothing is created. */
  function AddTrustedSender(s: Store, ins: InsertTrustedSender, id: string, now: int)
    : (r: Result<(Store, TrustedSender), ApiError>)
    ensures r.Err? <==> exists i :: 0 <= i < |s.senders| && s.senders[i].email == ins.email
    ensures r.Err? ==> r.error == SenderAlreadyTrusted
    ensures r.Ok? ==> r.value.0 == s.(senders := s.senders + [r.value.1])
    ensures r.Ok? ==> r.value.1 == TrustedSenderFromInsert(ins, id, now)
    ensures r.Ok? ==> r.value.1.email == ins.email && r.value.1.name == ins.name
    ensures r.Ok? ==> r.value.1.id == id && r.value.1.addedAt == now
    ensures r.Ok? && UniqueSenderEmails(s.senders) ==> UniqueSenderEmails(r.value.0.senders)
  {
    if GetTrustedSenderByEmail(s, ins.email).Some? then Err(SenderAlreadyTrusted)
    else match CreateTrustedSender(s, ins, id, now)
      case Ok(v) => Ok(v)
      case Err(_) => Err(AddSenderFailed)
  }

  /** `DELETE /api/trusted-senders/:id`: not found when no row has that id,
      and then nothing changes. */
  function RemoveTrustedSender(s: Store, id: string): (r: Result<Store, ApiError>)
    ensures r.Err? <==> forall i :: 0 <= i < |s.senders| ==> s.senders[i].id != id
    ensures r.Err? ==> r.error == TrustedSenderNotFound
    ensures r.Ok? ==> r.value.emails == s.emails && r.value.progress == s.progress
    ensures r.Ok? ==> |r.value.senders| < |s.senders|
    ensures r.Ok? ==> forall i :: 0 <= i < |r.value.senders| ==>
                        r.value.senders[i].id != id && r.value.senders[i] in s.senders
    ensures r.Ok? ==> forall i :: 0 <= i < |s.senders| && s.senders[i].id != id ==> s.senders[i] in r.value.senders
  {
    var (s', deleted) := DeleteTrustedSender(s, id);
    if deleted then
      Ok(s')
    else Err(TrustedSenderNotFound)
  }

  /** Once a sender is on the list, a second add of the same address fails. */
  lemma AddTwiceRejected(s: Store, ins: InsertTrustedSender, id1: string, id2: string, t1: int, t2: int)
    requires AddTrustedSender(s, ins, id1, t1).Ok?
    ensures AddTrustedSender(AddTrustedSender(s, ins, id1, t1).value.0, ins, id2, t2) == Err(SenderAlreadyTrusted)
    ensures AddTrustedSender(AddTrustedSender(s, ins, id1, t1).value.0, ins, id2, t2).error.Message()
         == "Sender already trusted"
  {
    var s' := AddTrustedSender(s, ins, id1, t1).value.0;
    assert s'.senders[|s.senders|].email == ins.email;
  }

  /** An email analysed after its sender was added to the allowlist is stored
      as trusted and never blocked. */
  lemma AllowlistedSenderIsTrusted(s: Store, ins: InsertTrustedSender, sid: string, t: int,
                                   req: AnalyzeRequest, isEmail: string -> bool,
                                   call: GptAnalysis.GptCall, trustedRoll: int, fallbackRoll: int,
                                   id: string, now: int)
    requires 0 <= trustedRoll < 10 && 0 <= fallbackRoll < 20
    requires req.sender == ins.email
    requires AddTrustedSender(s, ins, sid, t).Ok?
    requires ParseAnalyzeRequest(req, isEmail).Ok?
    ensures var s' := AddTrustedSender(s, ins, sid, t).value.0;
      var r := AnalyzeEmail(s', req, isEmail, call, trustedRoll, fallbackRoll, id, now);
      r.Ok? && r.value.1.category == "trusted" && !r.value.1.isBlocked && r.value.1.riskScore <= 15
  {
    var s' := AddTrustedSender(s, ins, sid, t).value.0;
    assert s'.senders[|s.senders|].email == req.sender;
  }
}

=== FILE: schema.dfy ===
/** The records the system persists (emails, trusted senders, per-user
    coaching progress), their insert shapes with column defaults, and the
    request shape accepted by the analysis endpoint. Generated columns
    (identifiers, timestamps) are supplied by the caller as parameters. */
module Schema {
  import opened Wrappers

  /** The three risk categories. Stored records keep the category as text. */
  datatype Category = Trusted | Suspicious | Spam {
    function Name(): string {
      match this
      case Trusted => "trusted"
      case Suspicious => "suspicious"
      case Spam => "spam"
    }
  }

  /** Distinct categories have distinct stored names. */
  lemma CategoryNameInjective(a: Category, b: Category)
    ensures a.Name() == b.Name() <==> a == b
  {
  }

  /** A stored email; `timestamp` is in milliseconds. */
  datatype Email = Email(
    id: string,
    sender: string,
    subject: string,
    body: string,
    category: string,
    riskScore: int,
    gptReasoning: Option<string>,
    timestamp: int,
    isBlocked: bool,
    isTrustedSender: bool)

  /** The insert shape of an email: no `id`, no `timestamp`; columns with a
      default may be left out. */
  datatype InsertEmail = InsertEmail(
    sender: string,
    subject: string,
    body: string,
    category: string,
    riskScore: Option<int>,
    gptReasoning: Option<string>,
    isBlocked: Option<bool>,
    isTrustedSender: Option<bool>)

  /** The row the database creates from an insert: generated id and time,
      risk score 0 and both flags false unless given. */
  function EmailFromInsert(ins: InsertEmail, id: string, now: int): (e: Email)
    ensures e.id == id && e.timestamp == now
    ensures e.sender == ins.sender && e.subject == ins.subject && e.body == ins.body
    ensures e.category == ins.category && e.gptReasoning == ins.gptReasoning
    ensures ins.riskScore.None? ==> e.riskScore == 0
    ensures ins.riskScore.Some? ==> e.riskScore == ins.riskScore.value
    ensures ins.isBlocked.None? ==> !e.isBlocked
    ensures ins.isBlocked.Some? ==> e.isBlocked == ins.isBlocked.value
    ensures ins.isTrustedSender.None? ==> !e.isTrustedSender
    ensures ins.isTrustedSender.Some? ==> e.isTrustedSender == ins.isTrustedSender.value
  {
    Email(id, ins.sender, ins.subject, ins.body, ins.category,
          ins.riskScore.GetOr(0), ins.gptReasoning, now,
          ins.isBlocked.GetOr(false), ins.isTrustedSender.GetOr(false))
  }

  /** An allow-listed sender address; `addedAt` is in milliseconds. */
  datatype TrustedSender = TrustedSender(id: string, email: string, name: Option<string>, addedAt: int)

  datatype InsertTrustedSender = InsertTrustedSender(email: string, name: Option<string>)

  function TrustedSenderFromInsert(ins: InsertTrustedSender, id: string, now: int): (t: TrustedSender)
    ensures t.id == id && t.addedAt == now
    ensures t.email == ins.email && t.name == ins.name
  {
    TrustedSender(id, ins.email, ins.name, now)
  }

  /** A text column holding a JSON array of strings: SQL null or the empty
      text, a well-formed array, or text that fails to parse. */
  datatype JsonList = Absent | Items(items: seq<string>) | Malformed

  /** The coaching progress record of one user. */
  datatype UserProgress = UserProgress(
    id: string,
    userId: string,
    totalSessions: int,
    correctGuesses: int,
    accuracy: int,
    streak: int,
    level: int,
    experience: int,
    badges: JsonList,
    weakAreas: JsonList,
    strengths: JsonList,
    lastUpdated: int)

  /** A partial insert shape of a progress record: every column optional. */
  datatype ProgressFields = ProgressFields(
    userId: Option<string>,
    totalSessions: Option<int>,
    correctGuesses: Option<int>,
    accuracy: Option<int>,
    streak: Option<int>,
    level: Option<int>,
    experience: Option<int>,
    badges: Option<JsonList>,
    weakAreas: Option<JsonList>,
    strengths: Option<JsonList>)

  const DefaultUserId := "default_user"

  /** The row the database creates from progress fields: user
      `default_user` and all counters 0 unless given, JSON columns null. */
  function ProgressFromInsert(f: ProgressFields, id: string, now: int): (p: UserProgress)
    ensures p.id == id && p.lastUpdated == now
    ensures p.userId == f.userId.GetOr(DefaultUserId)
    ensures f.totalSessions.None? ==> p.totalSessions == 0
    ensures f.correctGuesses.None? ==> p.correctGuesses == 0
    ensures f.accuracy.None? ==> p.accuracy == 0
    ensures f.streak.None? ==> p.streak == 0
    ensures f.level.None? ==> p.level == 0
    ensures f.experience.None? ==> p.experience == 0
    ensures f.totalSessions.Some? ==> p.totalSessions == f.totalSessions.value
    ensures f.correctGuesses.Some? ==> p.correctGuesses == f.correctGuesses.value
    ensures f.accuracy.Some? ==> p.accuracy == f.accuracy.value
    ensures f.streak.Some? ==> p.streak == f.streak.value
    ensures f.level.Some? ==> p.level == f.level.value
    ensures f.experience.Some? ==> p.experience == f.experience.value
    ensures f.badges.None? ==> p.badges == Absent
    ensures f.badges.Some? ==> p.badges == f.badges.value
    ensures f.weakAreas.None? ==> p.weakAreas == Absent
    ensures f.weakAreas.Some? ==> p.weakAreas == f.weakAreas.value
    ensures f.strengths.None? ==> p.strengths == Absent
    ensures f.strengths.Some? ==> p.strengths == f.strengths.value
  {
    UserProgress(id, f.userId.GetOr(DefaultUserId),
                 f.totalSessions.GetOr(0), f.correctGuesses.GetOr(0), f.accuracy.GetOr(0),
                 f.streak.GetOr(0), f.level.GetOr(0), f.experience.GetOr(0),
                 f.badges.GetOr(Absent), f.weakAreas.GetOr(Absent), f.strengths.GetOr(Absent),
                 now)
  }

  /** An SQL `SET` of the given fields: present fields overwrite, absent
      fields, the id and the last-updated time are kept. */
  function ApplyProgressFields(p: UserProgress, f: ProgressFields): (q: UserProgress)
    ensures q.id == p.id && q.lastUpdated == p.lastUpdated
    ensures q.userId == f.userId.GetOr(p.userId)
    ensures q.totalSessions == f.totalSessions.GetOr(p.totalSessions)
    ensures q.correctGuesses == f.correctGuesses.GetOr(p.correctGuesses)
    ensures q.accuracy == f.accuracy.GetOr(p.accuracy)
    ensures q.streak == f.streak.GetOr(p.streak)
    ensures q.level == f.level.GetOr(p.level)
    ensures q.experience == f.experience.GetOr(p.experience)
    ensures q.badges == f.badges.GetOr(p.badges)
    ensures q.weakAreas == f.weakAreas.GetOr(p.weakAreas)
    ensures q.strengths == f.strengths.GetOr(p.strengths)
  {
    p.(userId := f.userId.GetOr(p.userId),
       totalSessions := f.totalSessions.GetOr(p.totalSessions),
       correctGuesses := f.correctGuesses.GetOr(p.correctGuesses),
       accuracy := f.accuracy.GetOr(p.accuracy),
       streak := f.streak.GetOr(p.streak),
       level := f.level.GetOr(p.level),
       experience := f.experience.GetOr(p.experience),
       badges := f.badges.GetOr(p.badges),
       weakAreas := f.weakAreas.GetOr(p.weakAreas),
       strengths := f.strengths.GetOr(p.strengths))
  }

  /** The body of an analysis request. */
  datatype AnalyzeRequest = AnalyzeRequest(sender: string, subject: string, body: string)

  datatype SchemaError = InvalidRequest

  /** Validation of an analysis request: the sender must pass the e-mail
      address check `isEmail` (a library predicate, passed in), subject and
      body must each hold at least one character. */
  function ParseAnalyzeRequest(req: AnalyzeRequest, isEmail: string -> bool): (r: Result<AnalyzeRequest, SchemaError>)
    ensures r.Ok? <==> isEmail(req.sender) && |req.subject| >= 1 && |req.body| >= 1
    ensures r.Ok? ==> r.value == req
  {
    if isEmail(req.sender) && |req.subject| >= 1 && |req.body| >= 1 then Ok(req) else Err(InvalidRequest)
  }
}

=== FILE: sequences.dfy ===
/** Generic facts about sequences used by several components. */
module Sequences {
  import opened Wrappers

  /** No element occurs twice. */
  predicate Distinct<T(==)>(s: seq<T>) {
    forall i, j :: 0 <= i < j < |s| ==> s[i] != s[j]
  }

  /** `sub` is `s` with some elements dropped and the rest kept in order. */
  predicate IsSubsequence<T(==)>(sub: seq<T>, s: seq<T>)
    decreases |s|
  {
    if sub == [] then true
    else if s == [] then false
    else if sub[0] == s[0] then IsSubsequence(sub[1..], s[1..])
    else IsSubsequence(sub, s[1..])
  }

  /** `xs.filter(keep)`: the elements satisfying `keep`, in their order. */
  function Filter<T>(xs: seq<T>, keep: T -> bool): (r: seq<T>)
    ensures |r| <= |xs|
    ensures forall i :: 0 <= i < |r| ==> r[i] in xs && keep(r[i])
    ensures forall i :: 0 <= i < |xs| && keep(xs[i]) ==> xs[i] in r
    ensures (exists i :: 0 <= i < |xs| && !keep(xs[i])) ==> |r| < |xs|
  {
    if xs == [] then [] else (if keep(xs[0]) then [xs[0]] else []) + Filter(xs[1..], keep)
  }

  /** The filtered sequence is an order-preserving subsequence of the input. */
  lemma {:induction false} FilterIsSubsequence<T>(xs: seq<T>, keep: T -> bool)
    ensures IsSubsequence(Filter(xs, keep), xs)
  {
    if xs != [] {
      FilterIsSubsequence(xs[1..], keep);
      var r := Filter(xs, keep);
      if keep(xs[0]) {
        assert r[0] == xs[0] && r[1..] == Filter(xs[1..], keep);
      } else {
        assert r == Filter(xs[1..], keep);
        SubsequenceSkip(r, xs);
      }
    }
  }

  /** Dropping the head of the longer sequence keeps a subsequence a subsequence. */
  lemma {:induction false} SubsequenceSkip<T>(sub: seq<T>, s: seq<T>)
    requires s != [] && IsSubsequence(sub, s[1..])
    ensures IsSubsequence(sub, s)
    decreases |s|, 0
  {
    if sub != [] && sub[0] == s[0] {
      SubsequenceTail(sub, s[1..]);
    }
  }

  /** Dropping the head of a subsequence keeps it a subsequence. */
  lemma {:induction false} SubsequenceTail<T>(sub: seq<T>, s: seq<T>)
    requires sub != [] && IsSubsequence(sub, s)
    ensures IsSubsequence(sub[1..], s)
    decreases |s|, 1
  {
    if sub[0] != s[0] {
      SubsequenceTail(sub, s[1..]);
    }
    SubsequenceSkip(sub[1..], s);
  }

  /** Every occurrence of a kept element survives the filter, and no
      occurrence of a dropped one does. */
  lemma {:induction false} FilterMultiplicity<T>(xs: seq<T>, keep: T -> bool, x: T)
    ensures multiset(Filter(xs, keep))[x] == if keep(x) then multiset(xs)[x] else 0
  {
    if xs != [] {
      FilterMultiplicity(xs[1..], keep, x);
      assert xs == [xs[0]] + xs[1..];
    }
  }

  /** The filter returns its input exactly when it drops nothing. */
  lemma {:induction false} FilterKeepsAllIff<T>(xs: seq<T>, keep: T -> bool)
    ensures Filter(xs, keep) == xs <==> forall i :: 0 <= i < |xs| ==> keep(xs[i])
  {
    if xs != [] {
      FilterKeepsAllIff(xs[1..], keep);
      if !keep(xs[0]) {
        assert |Filter(xs, keep)| < |xs|;
      }
      if forall i :: 0 <= i < |xs| ==> keep(xs[i]) {
        assert forall i :: 0 <= i < |xs[1..]| ==> keep(xs[1..][i]);
      }
      if Filter(xs, keep) == xs {
        forall i | 0 <= i < |xs| ensures keep(xs[i]) {
          assert Filter(xs, keep)[i] == xs[i];
        }
      }
    }
  }

  /** The first element satisfying `p`, if any (`xs.find(p)`, or the first row
      of a query). */
  function Find<T>(xs: seq<T>, p: T -> bool): (r: Option<T>)
    ensures r.None? <==> forall i :: 0 <= i < |xs| ==> !p(xs[i])
    ensures r.Some? ==> exists i :: 0 <= i < |xs| && xs[i] == r.value && p(xs[i])
                                 && forall j :: 0 <= j < i ==> !p(xs[j])
  {
    if xs == [] then None
    else if p(xs[0]) then Some(xs[0])
    else
      var r := Find(xs[1..], p);
      assert r.Some? ==> exists i :: 1 <= i < |xs| && xs[i] == r.value && p(xs[i])
                                   && forall j :: 1 <= j < i ==> !p(xs[j]);
      r
  }
}

=== FILE: stats_panel.dfy ===
/** The statistics sidebar's percentage helper. */
module StatsPanel {
  import opened Numeric

  /** `getPercentage`: 0 for an empty total, otherwise `count / total * 100`
      rounded half up (a negative total divides through by its magnitude). */
  function GetPercentage(count: int, total: int): (r: int)
    ensures total == 0 ==> r == 0
    ensures total > 0 ==> 2 * total * r <= 200 * count + total < 2 * total * (r + 1)
    ensures total < 0 ==> 2 * -total * r <= -200 * count - total < 2 * -total * (r + 1)
  {
    if total == 0 then 0
    else if total > 0 then RoundDiv(100 * count, total)
    else RoundDiv(-100 * count, -total)
  }

  /** A share of a non-empty total is a percentage. */
  lemma PercentageInRange(count: int, total: int)
    requires 0 <= count <= total
    ensures 0 <= GetPercentage(count, total) <= 100
  {
    if total > 0 {
      RoundDivBounds(100 * count, total, 100);
    }
  }

  /** All of a non-empty total is 100 percent and none of it is 0 percent. */
  lemma PercentageEnds(total: int)
    requires total > 0
    ensures GetPercentage(total, total) == 100
    ensures GetPercentage(0, total) == 0
  {
    RoundDivExact(100, total);
    RoundDivExact(0, total);
  }
}

=== FILE: storage.dfy ===
/** The persistence layer as an in-memory store: three tables held as
    sequences of rows. Each operation returns the new store together with
    what the query returns; identifiers and times the database would
    generate are parameters. */
module Storage {
  import opened Wrappers
  import opened Numeric
  import opened Sequences
  import opened Schema

  datatype Store = Store(emails: seq<Email>, senders: seq<TrustedSender>, progress: seq<UserProgress>)

  /** The unique constraint on the trusted-sender address column. */
  predicate UniqueSenderEmails(senders: seq<TrustedSender>) {
    forall i, j :: 0 <= i < j < |senders| ==> senders[i].email != senders[j].email
  }

  /** `getEmailById`: the row with that id, if any. */
  function GetEmailById(s: Store, id: string): (r: Option<Email>)
    ensures r.Some? ==> r.value in s.emails && r.value.id == id
    ensures r.None? <==> forall i :: 0 <= i < |s.emails| ==> s.emails[i].id != id
  {
    Find(s.emails, (e: Email) => e.id == id)
  }

  /** `createEmail`: inserts one row built from the insert shape and returns it. */
  function CreateEmail(s: Store, ins: InsertEmail, id: string, now: int): (r: (Store, Email))
    ensures r.1 == EmailFromInsert(ins, id, now)
    ensures r.0 == s.(emails := s.emails + [r.1])
  {
    var e := EmailFromInsert(ins, id, now);
    (s.(emails := s.emails + [e]), e)
  }

  /** `deleteEmail`: removes every row with that id and reports whether any was removed. */
  function DeleteEmail(s: Store, id: string): (r: (Store, bool))
    ensures r.1 <==> exists i :: 0 <= i < |s.emails| && s.emails[i].id == id
    ensures !r.1 ==> r.0 == s
    ensures r.1 ==> |r.0.emails| < |s.emails|
    ensures r.0.senders == s.senders && r.0.progress == s.progress
    ensures forall i :: 0 <= i < |r.0.emails| ==> r.0.emails[i].id != id && r.0.emails[i] in s.emails
    ensures forall i :: 0 <= i < |s.emails| && s.emails[i].id != id ==> s.emails[i] in r.0.emails
  {
    var kept := Filter(s.emails, (e: Email) => e.id != id);
    FilterKeepsAllIff(s.emails, (e: Email) => e.id != id);
    var deleted := exists i :: 0 <= i < |s.emails| && s.emails[i].id == id;
    (s.(emails := kept), deleted)
  }

  /** `getTrustedSenderByEmail`: exact, case-sensitive comparison of the address. */
  function GetTrustedSenderByEmail(s: Store, email: string): (r: Option<TrustedSender>)
    ensures r.Some? ==> r.value in s.senders && r.value.email == email
    ensures r.None? <==> forall i :: 0 <= i < |s.senders| ==> s.senders[i].email != email
  {
    Find(s.senders, (t: TrustedSender) => t.email == email)
  }

  datatype StorageError = UniqueViolation

  /** `createTrustedSender`: the insert fails on the unique address column
      when the address is already present. */
  function CreateTrustedSender(s: Store, ins: InsertTrustedSender, id: string, now: int)
    : (r: Result<(Store, TrustedSender), StorageError>)
    ensures r.Err? <==> GetTrustedSenderByEmail(s, ins.email).Some?
    ensures r.Err? ==> r.error == UniqueViolation
    ensures r.Ok? ==> (r.value.1 == TrustedSenderFromInsert(ins, id, now)
                       && r.value.0 == s.(senders := s.senders + [r.value.1]))
    ensures r.Ok? && UniqueSenderEmails(s.senders) ==> UniqueSenderEmails(r.value.0.senders)
  {
    if GetTrustedSenderByEmail(s, ins.email).Some? then Err(UniqueViolation)
    else
      var t := TrustedSenderFromInsert(ins, id, now);
      Ok((s.(senders := s.senders + [t]), t))
  }

  /** `deleteTrustedSender`: removes the rows with that id and reports whether any was removed. */
  function DeleteTrustedSender(s: Store, id: string): (r: (Store, bool))
    ensures r.1 <==> exists i :: 0 <= i < |s.senders| && s.senders[i].id == id
    ensures !r.1 ==> r.0 == s
    ensures r.1 ==> |r.0.senders| < |s.senders|
    ensures r.0.emails == s.emails && r.0.progress == s.progress
    ensures forall i :: 0 <= i < |r.0.senders| ==> r.0.senders[i].id != id && r.0.senders[i] in s.senders
    ensures forall i :: 0 <= i < |s.senders| && s.senders[i].id != id ==> s.senders[i] in r.0.senders
  {
    var kept := Filter(s.senders, (t: TrustedSender) => t.id != id);
    FilterKeepsAllIff(s.senders, (t: TrustedSender) => t.id != id);
    var deleted := exists i :: 0 <= i < |s.senders| && s.senders[i].id == id;
    (s.(senders := kept), deleted)
  }

  /** Deleting a sender keeps the addresses unique. */
  lemma DeleteKeepsSendersUnique(s: Store, id: string)
    requires UniqueSenderEmails(s.senders)
    ensures UniqueSenderEmails(DeleteTrustedSender(s, id).0.senders)
  {
    var kept := DeleteTrustedSender(s, id).0.senders;
    FilterIsSubsequence(s.senders, (t: TrustedSender) => t.id != id);
    SubsequenceKeepsUniqueEmails(kept, s.senders);
  }

  lemma {:induction false} SubsequenceKeepsUniqueEmails(sub: seq<TrustedSender>, s: seq<TrustedSender>)
    requires IsSubsequence(sub, s) && UniqueSenderEmails(s)
    ensures UniqueSenderEmails(sub)
    decreases |s|
  {
    if sub != [] {
      assert UniqueSenderEmails(s[1..]) by {
        forall i, j | 0 <= i < j < |s[1..]| ensures s[1..][i].email != s[1..][j].email {
          assert s[1..][i] == s[i + 1] && s[1..][j] == s[j + 1];
        }
      }
      if sub[0] == s[0] {
        SubsequenceKeepsUniqueEmails(sub[1..], s[1..]);
        forall k | 0 <= k < |sub[1..]| ensures sub[1..][k].email != s[0].email {
          SubsequenceMember(sub[1..], s[1..], k);
        }
        forall i, j | 0 <= i < j < |sub| ensures sub[i].email != sub[j].email {
          if i == 0 {
            assert sub[j] == sub[1..][j - 1];
          } else {
            assert sub[i] == sub[1..][i - 1] && sub[j] == sub[1..][j - 1];
          }
        }
      } else {
        SubsequenceKeepsUniqueEmails(sub, s[1..]);
      }
    }
  }

  /** Every element of a subsequence is an element of the sequence. */
  lemma {:induction false} SubsequenceMember<T>(sub: seq<T>, s: seq<T>, k: int)
    requires IsSubsequence(sub, s) && 0 <= k < |sub|
    ensures exists i :: 0 <= i < |s| && s[i] == sub[k]
    decreases |s|
  {
    if sub[0] == s[0] {
      if k > 0 {
        SubsequenceMember(sub[1..], s[1..], k - 1);
        var i :| 0 <= i < |s[1..]| && s[1..][i] == sub[1..][k - 1];
        assert s[i + 1] == sub[k];
      } else {
        assert s[0] == sub[k];
      }
    } else {
      SubsequenceMember(sub, s[1..], k);
      var i :| 0 <= i < |s[1..]| && s[1..][i] == sub[k];
      assert s[i + 1] == sub[k];
    }
  }

  datatype Stats = Stats(total: int, trusted: int, suspicious: int, spam: int, avgRiskScore: int)

  /** `emailList.filter(e => e.category === name).length`. */
  function CountCategory(emails: seq<Email>, name: string): nat {
    |Filter(emails, (e: Email) => e.category == name)|
  }

  function SumRisk(emails: seq<Email>): int {
    if emails == [] then 0 else emails[0].riskScore + SumRisk(emails[1..])
  }

  /** `getEmailStats`. */
  function GetEmailStats(emails: seq<Email>): (r: Stats)
    ensures emails == [] ==> r == Stats(0, 0, 0, 0, 0)
    ensures r.total == |emails|
    ensures r.trusted == CountCategory(emails, "trusted")
    ensures r.suspicious == CountCategory(emails, "suspicious")
    ensures r.spam == CountCategory(emails, "spam")
    ensures emails != [] ==> r.avgRiskScore == RoundDiv(SumRisk(emails), |emails|)
  {
    if |emails| == 0 then Stats(0, 0, 0, 0, 0)
    else
      Stats(|emails|,
            CountCategory(emails, "trusted"),
            CountCategory(emails, "suspicious"),
            CountCategory(emails, "spam"),
            RoundDiv(SumRisk(emails), |emails|))
  }

  lemma CountCategoryStep(emails: seq<Email>, name: string)
    requires emails != []
    ensures CountCategory(emails, name)
         == (if emails[0].category == name then 1 else 0) + CountCategory(emails[1..], name)
  {
  }

  predicate KnownCategory(e: Email) {
    e.category == "trusted" || e.category == "suspicious" || e.category == "spam"
  }

  /** The three category counts never exceed the total, and add up to it
      when every stored category is one of the three. */
  lemma {:induction false} CategoryCountsPartition(emails: seq<Email>)
    ensures CountCategory(emails, "trusted") + CountCategory(emails, "suspicious")
          + CountCategory(emails, "spam") <= |emails|
    ensures (forall i :: 0 <= i < |emails| ==> KnownCategory(emails[i])) ==>
              (CountCategory(emails, "trusted") + CountCategory(emails, "suspicious")
               + CountCategory(emails, "spam") == |emails|)
  {
    if emails != [] {
      CategoryCountsPartition(emails[1..]);
      CountCategoryStep(emails, "trusted");
      CountCategoryStep(emails, "suspicious");
      CountCategoryStep(emails, "spam");
      assert forall i :: 1 <= i < |emails| ==> emails[i] == emails[1..][i - 1];
    }
  }

  /** The stats record's category counts never exceed its total, and fill it
      when every stored category is one of the three. */
  lemma StatsPartition(emails: seq<Email>)
    ensures var r := GetEmailStats(emails);
      r.trusted + r.suspicious + r.spam <= r.total
    ensures var r := GetEmailStats(emails);
      (forall i :: 0 <= i < |emails| ==> KnownCategory(emails[i])) ==> r.trusted + r.suspicious + r.spam == r.total
  {
    CategoryCountsPartition(emails);
  }

  /** With every stored score in 0..100 the average is in 0..100. */
  lemma AverageRiskInRange(emails: seq<Email>)
    requires emails != []
    requires forall i :: 0 <= i < |emails| ==> 0 <= emails[i].riskScore <= 100
    ensures 0 <= GetEmailStats(emails).avgRiskScore <= 100
  {
    SumRiskBounds(emails);
    RoundDivBounds(SumRisk(emails), |emails|, 100);
  }

  lemma {:induction false} SumRiskBounds(emails: seq<Email>)
    requires forall i :: 0 <= i < |emails| ==> 0 <= emails[i].riskScore <= 100
    ensures 0 <= SumRisk(emails) <= 100 * |emails|
  {
    if emails != [] {
      assert forall i :: 0 <= i < |emails[1..]| ==> emails[1..][i] == emails[i + 1];
      SumRiskBounds(emails[1..]);
    }
  }

  /** `getUserProgress`: the first progress row of the user, `default_user`
      when no user is named. */
  function GetUserProgress(rows: seq<UserProgress>, userId: Option<string>): (r: Option<UserProgress>)
    ensures r.Some? ==> r.value in rows && r.value.userId == userId.GetOr(DefaultUserId)
    ensures r.None? <==> forall i :: 0 <= i < |rows| ==> rows[i].userId != userId.GetOr(DefaultUserId)
  {
    var who := userId.GetOr(DefaultUserId);
    Find(rows, (p: UserProgress) => p.userId == who)
  }

  /** `updateUserProgress`: an upsert. When the user has rows, the fields are
      set on every one of them and the first is returned; otherwise one row is
      inserted carrying the user id and the fields. */
  function UpdateUserProgress(rows: seq<UserProgress>, userId: string, f: ProgressFields,
                              id: string, now: int): (r: (seq<UserProgress>, UserProgress))
    ensures var existing := GetUserProgress(rows, Some(userId));
      && (existing.Some? ==> r.1 == ApplyProgressFields(existing.value, f) && |r.0| == |rows|)
      && (existing.None? ==>
            (r.0 == rows + [r.1] && r.1 == ProgressFromInsert(f.(userId := Some(f.userId.GetOr(userId))), id, now)))
    ensures forall i :: 0 <= i < |rows| && rows[i].userId == userId ==> r.0[i] == ApplyProgressFields(rows[i], f)
    ensures forall i :: 0 <= i < |rows| && rows[i].userId != userId ==> r.0[i] == rows[i]
  {
    var existing := GetUserProgress(rows, Some(userId));
    if existing.Some? then
      var updated := seq(|rows|, i requires 0 <= i < |rows| =>
        if rows[i].userId == userId then ApplyProgressFields(rows[i], f) else rows[i]);
      (updated, ApplyProgressFields(existing.value, f))
    else
      var p := ProgressFromInsert(f.(userId := Some(f.userId.GetOr(userId))), id, now);
      (rows + [p], p)
  }

  /** Read after write: unless the fields move the record to another user,
      reading the user's progress after the upsert returns what the upsert returned. */
  lemma UpsertThenRead(rows: seq<UserProgress>, userId: string, f: ProgressFields, id: string, now: int)
    requires f.userId.None? || f.userId == Some(userId)
    ensures var r := UpdateUserProgress(rows, userId, f, id, now);
      GetUserProgress(r.0, Some(userId)) == Some(r.1)
  {
    var r := UpdateUserProgress(rows, userId, f, id, now);
    var existing := GetUserProgress(rows, Some(userId));
    if existing.Some? {
      var k :| 0 <= k < |rows| && rows[k] == existing.value && rows[k].userId == userId
             && forall j :: 0 <= j < k ==> rows[j].userId != userId;
      assert r.0[k] == r.1;
      FindFirstAt(r.0, (p: UserProgress) => p.userId == userId, k);
    } else {
      FindFirstAt(r.0, (p: UserProgress) => p.userId == userId, |rows|);
    }
  }

  /** `Find` returns the element at the first index satisfying the predicate. */
  lemma FindFirstAt<T>(xs: seq<T>, p: T -> bool, k: int)
    requires 0 <= k < |xs| && p(xs[k]) && forall j :: 0 <= j < k ==> !p(xs[j])
    ensures Find(xs, p) == Some(xs[k])
  {
  }

  /** `getRandomEmailForTraining`; `pick` is `Math.floor(Math.random() * n)`. */
  function GetRandomEmailForTraining(emails: seq<Email>, pick: nat): (r: Option<Email>)
    requires emails == [] || pick < |emails|
    ensures r.None? <==> emails == []
    ensures r.Some? ==> r.value in emails
  {
    if |emails| == 0 then None else Some(emails[pick])
  }
}

=== FILE: text.dfy ===
/** String operations the system takes from JavaScript's `String` API,
    restricted to what the model needs: substring search, ASCII case
    mapping, character counting and decimal rendering of counts. */
module Text {

  predicate IsUpper(c: char) {
    'A' <= c <= 'Z'
  }

  predicate IsDigit(c: char) {
    '0' <= c <= '9'
  }

  /** `k` occurs in `s` starting at position `i`. */
  predicate OccursAt(s: string, k: string, i: int) {
    0 <= i && i + |k| <= |s| && s[i..i + |k|] == k
  }

  /** `s.includes(k)`: `k` occurs in `s` as a contiguous substring. */
  predicate Contains(s: string, k: string) {
    exists i | 0 <= i <= |s| :: OccursAt(s, k, i)
  }

  function LowerChar(c: char): (r: char)
    ensures !IsUpper(r)
    ensures IsUpper(c) ==> r as int == c as int + 32
    ensures !IsUpper(c) ==> r == c
  {
    if IsUpper(c) then (c as int + 32) as char else c
  }

  function UpperChar(c: char): (r: char)
    ensures 'a' <= c <= 'z' ==> IsUpper(r) && r as int == c as int - 32
    ensures !('a' <= c <= 'z') ==> r == c
  {
    if 'a' <= c <= 'z' then (c as int - 32) as char else c
  }

  /** `s.toLowerCase()` on ASCII letters. */
  function ToLower(s: string): (r: string)
    ensures |r| == |s|
    ensures forall i :: 0 <= i < |s| ==> r[i] == LowerChar(s[i])
  {
    seq(|s|, i requires 0 <= i < |s| => LowerChar(s[i]))
  }

  /** Number of occurrences of `c` in `s` (`s.match(/c/g).length`). */
  function CountChar(s: string, c: char): (n: nat)
    ensures n <= |s|
  {
    if s == [] then 0 else (if s[0] == c then 1 else 0) + CountChar(s[1..], c)
  }

  /** Number of characters of `s` in `A`..`Z` (`s.match(/[A-Z]/g).length`). */
  function CountUpper(s: string): (n: nat)
    ensures n <= |s|
  {
    if s == [] then 0 else (if IsUpper(s[0]) then 1 else 0) + CountUpper(s[1..])
  }

  /** A lower-cased string contains no upper-case letter. */
  lemma {:induction false} LowerHasNoUpper(s: string)
    ensures CountUpper(ToLower(s)) == 0
  {
    if s != [] {
      LowerHasNoUpper(s[1..]);
      assert ToLower(s)[1..] == ToLower(s[1..]);
    }
  }

  /** A pattern holding an upper-case letter never occurs in a lower-cased string. */
  lemma UpperPatternNeverInLower(s: string, k: string, j: int)
    requires 0 <= j < |k| && IsUpper(k[j])
    ensures !Contains(ToLower(s), k)
  {
    var t := ToLower(s);
    forall i | 0 <= i && i + |k| <= |t|
      ensures !OccursAt(t, k, i)
    {
      assert !IsUpper(t[i + j]);
      assert t[i..i + |k|][j] != k[j];
    }
  }

  /** Lower-casing distributes over concatenation. */
  lemma LowerConcat(a: string, b: string)
    ensures ToLower(a + b) == ToLower(a) + ToLower(b)
  {
    var l := ToLower(a + b);
    var r := ToLower(a) + ToLower(b);
    forall i | 0 <= i < |l|
      ensures l[i] == r[i]
    {
      if i < |a| {
        assert (a + b)[i] == a[i];
      } else {
        assert (a + b)[i] == b[i - |a|];
      }
    }
  }

  /** Counting a character over a concatenation adds the counts of the parts. */
  lemma {:induction false} CountCharAppend(a: string, b: string, c: char)
    ensures CountChar(a + b, c) == CountChar(a, c) + CountChar(b, c)
  {
    if a != [] {
      CountCharAppend(a[1..], b, c);
      assert (a + b)[0] == a[0];
      assert (a + b)[1..] == a[1..] + b;
    } else {
      assert a + b == b;
    }
  }

  /** Upper-cases only the first character: `s.charAt(0).toUpperCase() + s.slice(1)`. */
  function Capitalize(s: string): (r: string)
    ensures |r| == |s|
    ensures |s| > 0 ==> r[0] == UpperChar(s[0]) && r[1..] == s[1..]
  {
    if s == [] then [] else [UpperChar(s[0])] + s[1..]
  }

  function DigitChar(d: nat): (c: char)
    requires d < 10
    ensures IsDigit(c)
  {
    ('0' as int + d) as char
  }

  function DigitValue(c: char): (d: nat)
    requires IsDigit(c)
    ensures d < 10
  {
    c as int - '0' as int
  }

  /** Decimal rendering of a count, as a template literal `${n}` prints it. */
  function NatToString(n: nat): (r: string)
    ensures |r| > 0
    ensures forall i :: 0 <= i < |r| ==> IsDigit(r[i])
    ensures |r| > 1 ==> r[0] != '0'
  {
    if n < 10 then [DigitChar(n)] else NatToString(n / 10) + [DigitChar(n % 10)]
  }

  /** Reads a string of decimal digits back as a number. */
  function ParseNat(s: string): nat
    requires forall i :: 0 <= i < |s| ==> IsDigit(s[i])
  {
    if s == [] then 0 else 10 * ParseNat(s[..|s| - 1]) + DigitValue(s[|s| - 1])
  }

  /** The rendered digits read back as the number rendered. */
  lemma {:induction false} NatToStringRoundTrip(n: nat)
    ensures ParseNat(NatToString(n)) == n
  {
    if n >= 10 {
      var s := NatToString(n);
      assert s[..|s| - 1] == NatToString(n / 10);
      NatToStringRoundTrip(n / 10);
    }
  }
}

=== FILE: wrappers.dfy ===
/** Optional values and error-carrying results, used wherever the system
    returns `undefined` or answers a request with an error status. */
module Wrappers {

  /** A value that may be absent (`undefined` or `null` in the system). */
  datatype Option<+T> = None | Some(value: T) {

    /** The carried value, or `default` when there is none. */
    function GetOr(default: T): T {
      match this
      case Some(v) => v
      case None => default
    }
  }

  /** Either a successful value or an error. */
  datatype Result<+R, +E> = Ok(value: R) | Err(error: E)
}
